=== FILE: README.md ===
# gorc reconciliation core in Dafny

This project models the reconciliation engine of the gorc / gops GitHub
organisation tool and proves properties about it. The tool reads a desired
document (organisation settings, members, outside collaborators, teams and
repositories) and compares each part with the live state the GitHub API
returns. It reports what has to be removed and what has to be created or
updated. In apply mode it writes the outside-collaborator changes.

Modules follow the source files:

- `Wrappers`: `Option` and `Result`.
- `Seqs`: `filter`, `find` and `map` on sequences, plus subsequence facts.
- `Json`: JSON values and `removeEmpty` (src/gops.ts, duplicated in src/gorc.ts).
  - Objects are `map<string, Json>`.
  - Arrays are `seq<Option<Json>>`, because deleting an array index leaves a hole (`None`).
  - A record field is a `Field = Option<Prim>`. `None` is `undefined`, and `==` on fields is `===`.
- `Diff`: the generic difference `{ remove, update }` for an identity predicate `exist` and an equality predicate `same`. It also holds the `?.`/`|| []` nested form, the per-parent nested diffs and the in-sync / dry-run / applied branch.
- `Members`, `Collaborators`, `Teams`, `Repositories`: each reconciler's `apply`. Each is instantiated with the source's exact predicates, plus the pure assembly of the live list that `get` performs.
- `Gateway`: the collaborator write calls and the error values. `Behaviours`: the policy switch.
- `Organizations`: the organisation settings record.
- `Gops`: the first orchestration, which runs org, members, teams and repos in order.
- `Gorc`: the second orchestration and the `run` command dispatcher.

The collaborator apply step returns an effect trace. First comes the add batch. Then comes either a remove batch or a warning, depending on the `unknown_collaborators` policy. Each `Promise.all` batch is a multiset of calls. The API's answer to each call is a parameter `rejects: Call -> bool`.

In the orchestrations, each reconciler is an abstract function returning `Result`. The model's own reconcilers are then plugged in (`Gops.Modelled`, `Gorc.ModelledMembers`) to show what a full run returns.

In these places the code behaves differently from what its names and its schema suggest, and the model follows the code:

- The top-level team `same` does not compare `slug` (src/teams.ts:46-47). So, unlike the other kinds, "equality implies identity" fails for teams. `Teams.NewSlugMatchingLiveFieldsNotUpdated` exhibits a desired team with a new slug that is never listed for update, while the live team is listed for removal.
- `members.ts` and `collaborators.ts` normalise only the live list. `teams.ts` and `repositories.ts` normalise both lists and return the normalised desired list.
- Failures are not caught per kind:
  - `gops.ts` `apply` has no `catch`, so the first failure ends the run.
  - `gorc.ts` wraps the whole command in one `try`, so an organisation failure means the members reconciler is never called.
  - `gorc.ts` `apply` does not call the collaborator and team reconcilers (they are commented out). It returns empty lists for them.
- A list can be missing from the desired document. A missing key passes the gorc schema, which requires only `org` (src/schema.ts:190), and `gorc.ts` even falls back to `{}` for an empty file. A key written without a value (`null`) fails `validate`, because the lists are declared as arrays (src/schema.ts:90,109,116). It still reaches `apply`, because `run` does not validate before `dry-run` or `apply` (src/gorc.ts:96-116). The reconcilers then raise a `TypeError`: `members.filter` (src/members.ts:41-42) and `Object.keys` inside `removeEmpty` (src/teams.ts:40, src/repositories.ts:58) fail on `undefined` and `null`. The model's document parts are `Option`s and its reconcilers fail with `NotAList` on `None`.
- The collaborator add batch is awaited before any removal is issued. So an add-batch failure means no removal calls at all.
- The code reads the policy key `unknown_collaborators`; the schema names it `unknown_collaborator`. A missing or unrecognised value selects no case: nothing is removed and no warning is given. A missing behaviours record fails after the add batch, like the `TypeError` it raises.

## Model

| member | source | states |
|---|---|---|
| Json.RemoveEmpty | src/gops.ts:21-27 | the result keeps the value's kind and no key or index at any depth holds `''` or `null` |
| Json.RemoveEmptyObject | src/gops.ts:22-24 | on an object, exactly the `''`/`null` keys go, other primitives keep their value, nested objects and arrays are cleaned but kept even when they end up empty |
| Json.RemoveEmptyArray | src/gops.ts:22-24 | on an array the length is unchanged, `''`/`null` indices become holes and every other index keeps its (cleaned) element |
| Json.FalsyValuesKept | src/gops.ts:23-24 | `false` and `0` survive unchanged although they are falsy |
| Json.RemoveEmptyFixesClean | src/gops.ts:21-27 | a value with nothing blank at any depth is left as it is |
| Json.RemoveEmptyIdempotent | src/gops.ts:21-27 | applying `removeEmpty` twice equals applying it once |
| Json.NormalizeField | src/gops.ts:24 | a field becomes `undefined` exactly when it was `undefined`, `null` or `''`, and is otherwise unchanged |
| Json.CleanFieldsUnion | src/gops.ts:22 | the key loop treats each key on its own: cleaning a union of disjoint records cleans each part |
| Json.CleanRecord | src/gops.ts:22-24 | cleaning a record of primitive fields keeps exactly the fields whose normalised value is defined, with that value |
| Json.RemoveEmptyList | src/gops.ts:21-27 | on an array of records none of which is blank, `removeEmpty` normalises each record in place and leaves no hole |
| Diff.Removals | src/members.ts:41 | `remove` holds exactly the current elements with no desired element of the same identity, as a subsequence with their multiplicities |
| Diff.Updates | src/members.ts:42 | `update` holds exactly the desired elements that no current element equals, as a subsequence with their multiplicities |
| Diff.Compute | src/members.ts:40-43 | both membership conditions, and no removed element shares its identity with an updated one |
| Diff.SelfDiffEmpty | src/members.ts:41-42 | a list compared with itself has no differences when both predicates are reflexive |
| Diff.NewIdentityUpdated | src/repositories.ts:86-87 | when `same` implies `exist`, a desired element whose identity is not current is always updated |
| Diff.MatchedInNeither | src/members.ts:35-42 | a desired element equal to a current one is neither removed nor updated |
| Diff.EmptyIff | src/members.ts:41-45 | no differences exactly when every current element has a desired counterpart and every desired element an equal current one |
| Diff.BranchFor | src/members.ts:45-63 | in sync exactly when nothing differs; dry run exactly when something differs and the flag is set; applied otherwise |
| Diff.Nested | src/teams.ts:64-65 | a missing current list removes nothing; a missing desired list updates nothing and removes every current child |
| Diff.NestedIsCompute | src/teams.ts:64-65 | the `?.` / `\|\| []` nested diff equals the plain diff on the lists with a missing list read as empty |
| Diff.Entry | src/teams.ts:60-69 | a parent gets an entry exactly when its key has a first current match and the nested diff against that first match is non-empty; the entry carries the parent's key and that nested diff |
| Diff.PerParent | src/teams.ts:59-71 | the entries are exactly the non-empty per-parent diffs of desired parents, in desired order |
| Diff.PerParentEntries | src/repositories.ts:92-114 | every entry is non-empty, names a parent on both sides, and the entries follow desired order |
| Diff.SelfPerParentEmpty | src/teams.ts:59-71 | with unique parent keys and reflexive predicates, a parent list has no per-parent differences against itself |
| Members.NormalizeIsRemoveEmpty | src/members.ts:32 | `removeEmpty` on a member object is field-wise normalisation |
| Members.NormalizeListIsRemoveEmpty | src/members.ts:32 | `removeEmpty` on the live member array normalises every member and leaves no hole |
| Members.EveryMemberNormalizes | src/members.ts:32 | `removeEmpty` on every member object, whatever its fields, is field-wise normalisation |
| Members.NormalizeIdempotent | src/members.ts:32 | normalising a normalised member changes nothing |
| Members.LiveMembers | src/members.ts:10-27 | the live list is every fetched admin, then every member, then every outside collaborator, each in fetch order, position by position, with roles admin, member and collaborator |
| Members.LiveMembersByRole | src/members.ts:10-27 | selecting the entries of one role recovers exactly the logins fetched for that role, in fetch order |
| Members.Differences | src/members.ts:35-43 | removals are the normalised live members whose login is not desired and updates the desired members whose exact `(login, role)` is not live, each in list order with its multiplicity; no login is in both |
| Members.Reconcile | src/members.ts:30-63 | the desired list is returned unchanged in every branch and the branch is decided by the differences and the flag |
| Members.ExactMatchInNeither | src/members.ts:35-42 | a desired member whose exact pair is live is in neither list |
| Members.InSyncIff | src/members.ts:41-45 | in sync exactly when every live login is desired and every desired pair is live |
| Members.SamePairsInSync | src/members.ts:41-62 | the same `(login, role)` pairs on both sides take the in-sync branch |
| Members.DryRunMatchesApply | src/members.ts:52-59 | dry run and apply report the same differences and return the same list |
| Members.ReapplyInSync | src/members.ts:30-63 | reconciling again against a live list equal to the returned list is in sync |
| Members.Example | src/members.ts:35-43 | a role change and a new login are updates and a dropped login is a removal |
| Collaborators.Holes | src/collaborators.ts:55 | `removeEmpty` on the live login array turns exactly the `''` logins into holes and keeps the rest in place |
| Collaborators.HolesIsRemoveEmpty | src/collaborators.ts:55 | `Holes` is what `removeEmpty` does to an array of strings |
| Collaborators.Present | src/collaborators.ts:60 | `filter` visits only the non-hole logins |
| Collaborators.Differences | src/collaborators.ts:59-62 | removals are the non-empty live logins not desired and updates the desired logins that are `''` or not live, each in list order with its multiplicity; no login is in both |
| Collaborators.EmptyLoginAlwaysUpdated | src/collaborators.ts:55-61 | a desired `''` login is never found live, so it is always an update |
| Behaviours.DispositionOf | src/collaborators.ts:80-93 | `remove` selects removal, `warn` selects a warning, and any other value (or none) selects nothing |
| Collaborators.Apply | src/collaborators.ts:65-107 | no write unless applying; in apply mode the add batch comes first, a second step only after a fully accepted add batch and with behaviours present, and success returns the desired list |
| Collaborators.IssuedCalls | src/collaborators.ts:74-93 | the calls issued are the add calls plus, under the remove policy after a clean add batch, the remove calls |
| Collaborators.QuietUnlessApplying | src/collaborators.ts:100-107 | in dry run or when in sync no call is issued and the desired list is returned |
| Collaborators.OneAddPerUpdate | src/collaborators.ts:74-78 | in apply mode each login gets exactly as many add calls as it has occurrences in `update` |
| Collaborators.FailedAddsStopRemovals | src/collaborators.ts:74-99 | a rejected add means only add calls were issued and the call fails |
| Collaborators.FailedRemoveFails | src/collaborators.ts:80-99 | under the remove policy, with every add accepted, a rejected removal of a non-empty undesired live login fails the run, names that call, and both batches were issued |
| Collaborators.RemovePolicyRemoves | src/collaborators.ts:80-87 | under the remove policy, after a clean add batch, each login gets as many remove calls as it has occurrences in `remove` |
| Collaborators.OtherPoliciesKeep | src/collaborators.ts:80-93 | any policy other than `remove` issues no remove call |
| Collaborators.WritesTargetTheDifference | src/collaborators.ts:74-86 | every add targets an `update` login and every remove a `remove` login |
| Collaborators.FailuresComeFromTheGateway | src/collaborators.ts:96-99 | a failure happens only in apply mode and is a missing behaviours record or a non-empty set of issued, rejected calls |
| Teams.NormalizeIsRemoveEmpty | src/teams.ts:40-41 | `removeEmpty` on a team object normalises its fields and its member list |
| Teams.NormalizeListIsRemoveEmpty | src/teams.ts:40-41 | `removeEmpty` on a team array normalises every team and leaves no hole |
| Teams.NormalizeIdempotent | src/teams.ts:40-41 | normalising a normalised team changes nothing |
| Teams.Differences | src/teams.ts:53-57 | removals are the live teams whose slug is not desired and updates the desired teams no live team agrees with on name, privacy, parent and description, each in list order with its multiplicity; no slug is in both |
| Teams.Reconcile | src/teams.ts:38-94 | the normalised desired list is returned in every branch and the branch is decided by all three difference lists and the flag |
| Teams.NestedEntriesForSharedTeams | src/teams.ts:59-71 | member entries exist only for desired teams whose slug is live, are non-empty and follow desired order |
| Teams.NestedMemberDiff | src/teams.ts:49-65 | the nested diff is keyed by login with login and role equality; a missing desired list removes every live member, a missing live list adds every desired one |
| Teams.NewSlugMatchingLiveFieldsNotUpdated | src/teams.ts:46-55 | any desired team agreeing with a live team on every compared field but with another slug is not updated, and the live team is removed |
| Teams.RenamedTeamExample | src/teams.ts:46-55 | for example, live slug `a` and desired slug `b` with the same name and privacy: no update, and `a` is removed |
| Teams.ReapplyInSync | src/teams.ts:38-94 | reconciling again against a live list equal to the returned list is in sync |
| Teams.LiveTeam | src/teams.ts:15-35 | the live team keeps the fetched slug, name, description and privacy, its parent is the parent team's slug (absent without a parent), and its members are every `member` then every `maintainer`, in fetch order, position by position |
| Teams.LiveTeamByRole | src/teams.ts:24-33 | selecting role `member` or `maintainer` recovers exactly the logins fetched for it, in order |
| Repositories.NormalizeIsRemoveEmpty | src/repositories.ts:58-59 | `removeEmpty` on a repository object normalises its settings and both grant lists |
| Repositories.NormalizeListIsRemoveEmpty | src/repositories.ts:58-59 | `removeEmpty` on a repository array normalises every repository and leaves no hole |
| Repositories.NormalizeIdempotent | src/repositories.ts:58-59 | normalising a normalised repository changes nothing |
| Repositories.Differences | src/repositories.ts:85-90 | removals are the live repositories whose name is not desired and updates the desired repositories no live one equals on name and the ten settings, each in list order with its multiplicity; no name is in both |
| Repositories.Reconcile | src/repositories.ts:55-146 | the normalised desired list is returned in every branch and the branch is decided by all four difference lists and the flag |
| Repositories.NewRepositoryUpdated | src/repositories.ts:62-94 | a desired repository whose name is not live is updated, not removed, and has no grant entry |
| Repositories.GrantEntriesForSharedRepositories | src/repositories.ts:92-114 | collaborator and team grant entries exist only for repositories on both sides, are non-empty and follow desired order |
| Repositories.DryRunMatchesApply | src/repositories.ts:134-141 | apply and dry run compute the same differences and return the same list |
| Repositories.ReapplyInSync | src/repositories.ts:55-146 | reconciling again against a live list equal to the returned list is in sync |
| Repositories.LiveRepository | src/repositories.ts:27-53 | the name and the nine copied settings are the fetched ones, visibility is `private` exactly when the fetched flag is set, otherwise `public`, and both grant lists are present and mirror the fetched ones in order |
| Repositories.MissingGrantsRemoveAll | src/repositories.ts:97-108 | against a live repository, a desired repository without grant lists removes every live grant and adds none |
| Gops.Apply | src/gops.ts:61-71 | reconcilers are called in the order org, members, teams, repos with the given flag; the run stops at the first failure with its error; on success the result's four parts are their return values |
| Gops.FailureStopsLaterStages | src/gops.ts:64-68 | a failing stage means no later reconciler is called and the run fails |
| Gops.ModelledApply | src/gops.ts:61-71 | with this model's reconcilers and every list present, all four run and the result is the desired document with teams and repositories normalised |
| Gops.ModelledMissingList | src/gops.ts:64-68 | with this model's reconcilers, the first missing or `null` list ends the run at its stage with a `TypeError` naming it, after the stages before it |
| Gorc.Apply | src/gorc.ts:69-80 | the organisation reconciler runs, then the members reconciler only if it succeeded; the result carries empty collaborator and team lists and the behaviours unchanged |
| Gorc.Validate | src/gorc.ts:54-67 | throws a validation error with the reported violations exactly when invalid and violations are listed, otherwise returns the verdict |
| Gorc.ValidateTrueOrThrows | src/gorc.ts:58-66 | when every rejection lists its violations, `validate` returns `true` or throws |
| Gorc.SilentRejectionReturnsFalse | src/gorc.ts:60-66 | a rejection without listed violations returns `false` |
| Gorc.Run | src/gorc.ts:82-120 | the output names the organisation and holds at most one error; an unknown command records exactly one error and nothing else; only `dry-run`/`apply` call reconcilers, with the flag set exactly for `dry-run` |
| Gorc.DryRunMatchesApply | src/gorc.ts:104-109 | when the reconcilers answer the same whatever the flag, `dry-run` and `apply` produce the same output after calling the same stages, with the flag `true` and `false` respectively |
| Gorc.OrgFailureSkipsMembers | src/gorc.ts:74-75 | an organisation failure is recorded and the members reconciler is never called |
| Gorc.RecognisedCommandReportsOne | src/gorc.ts:96-116 | a recognised command reports either its product or exactly one error |
| Gorc.ModelledApply | src/gorc.ts:69-80 | with this model's reconcilers both stages run; with `members` present the output holds the desired organisation and members, empty collaborator and team lists and the behaviours as given, otherwise it records the `TypeError` |
| Gorc.EmptyFileRecordsTypeError | src/gorc.ts:85 | an empty configuration file, read as `{}`, makes `apply` and `dry-run` record the members reconciler's `TypeError` |

## Left out

- Network access (src/octokit.ts), pagination and authentication. A fetch is the list it returns, given as a parameter. A write is a `Call` whose success is decided by the `rejects` parameter.
- The organisation comparison. It is done by the external `deep-diff` library (src/organizations.ts:56). Every branch returns the record it was given as its desired one, which is how the model's organisation reconciler behaves. For `gorc.ts` this holds only as the call evidently intends; see the next line.
- Gorc.Apply and Gorc.ModelledApply: `gorc.ts` calls `applyOrg(octokit, organization, dryRun, gorc.org)` and `applyMembers(octokit, organization, dryRun, gorc.members, gorc.behaviours)` (src/gorc.ts:74-75). Those functions are declared `apply(login, dryrun, org)` (src/organizations.ts:53) and `apply(login, dryrun, members)` (src/members.ts:30). As written, every argument shifts by one place: `login` receives the client object, `dryrun` the organisation name, and `org`/`members` the boolean flag, so `gorc.org` and `gorc.members` never reach the reconcilers. `init` has the same shift (src/gorc.ts:39-42). The model wires each reconciler to its own part of the document and to the flag, as the calls evidently intend, and does not model the shifted call.
- The `todo` writes of members, teams and repositories. Their `apply` issues no call in any branch, and so does the model.
- File and YAML reading and writing in `init`, in `run` and at module load (src/gorc.ts:37-49,85; src/gops.ts:29-40). `init` is an abstract result of the dispatcher's environment.
- The Ajv validator (src/gorc.ts:56-58). Its verdict and error list are a parameter.
- Logging (src/logger.ts), the Actions entry point (src/main.ts) and its test (src/main.test.ts).
- `Promise.all` concurrency: a batch is an unordered multiset of independent calls, all of them issued. The order in which they complete is not modelled.
- The schema's enumerations (roles, privacy, permissions). Records hold raw field values, because the code compares them with `===` without checking them.
- `convert_to_outside_collaborator`: it is declared but never acted on.
- Numbers are integers, and floating point is not modelled. Entity fields hold primitives; a nested object where the code expects a string is not modelled.
- A `null` or non-object entry inside a desired list cannot be written in the model: desired members, teams and repositories are records, and desired collaborators are strings. The gorc schema rejects such entries, but `run` does not validate before `apply` (src/gorc.ts:96-116). In the source, `removeEmpty` turns a `null` team or repository into a hole (src/teams.ts:40, src/repositories.ts:58). The `find` over the desired list then reads `.slug` or `.name` of `undefined` and throws a `TypeError` as soon as one live entry exists (src/teams.ts:54, src/repositories.ts:86). A `null` member has its `.login` read the same way (src/members.ts:37,40-41). A `null` collaborator equals no live login, so it lands in the update list and an add call is issued for it (src/collaborators.ts:61).
- `Promise.all` rejection: it rejects with the first rejected call's error only. The model's `BatchRejected` carries the set of every rejected call in the batch, because which rejection settles first depends on timing, which is not modelled.

=== FILE: behaviours.dfy ===
/** The policy record for live entries that the desired document does not mention. */
module Behaviours {
  import opened Wrappers
  import opened Json

  /** `{ unknown_teams, unknown_members, unknown_collaborators }` as raw values from the document. */
  datatype Behaviours = Behaviours(unknownTeams: Field, unknownMembers: Field, unknownCollaborators: Field)

  /** What a `switch` over a policy value selects; a value matching no case selects nothing. */
  datatype Disposition = RemoveUnknown | WarnUnknown | NoCase

  /** `switch (value) { case 'remove': ...; case 'warn': ... }` with strict equality. */
  function DispositionOf(f: Field): (d: Disposition)
    ensures d == RemoveUnknown <==> f == Some(PStr("remove"))
    ensures d == WarnUnknown <==> f == Some(PStr("warn"))
  {
    if f == Some(PStr("remove")) then RemoveUnknown
    else if f == Some(PStr("warn")) then WarnUnknown
    else NoCase
  }
}

=== FILE: collaborators.dfy ===
/** Outside collaborators of the organisation (src/collaborators.ts). */
module Collaborators {
  import opened Wrappers
  import opened Seqs
  import opened Json
  import opened Diff
  import opened Gateway
  import opened Behaviours

  /** The live login array after `removeEmpty`: every '' login leaves a hole. */
  function Holes(live: seq<string>): (r: seq<Option<string>>)
    ensures |r| == |live|
    ensures forall i :: 0 <= i < |live| ==> (r[i].None? <==> live[i] == "")
    ensures forall i :: 0 <= i < |live| && r[i].Some? ==> r[i].value == live[i]
  {
    Map((l: string) => if l == "" then None else Some(l), live)
  }

  function StringsJson(a: seq<Option<string>>): Json {
    JArr(Map((h: Option<string>) => if h.Some? then Some(JStr(h.value)) else None, a))
  }

  /** `Holes` is what `removeEmpty` does to an array of logins. */
  lemma HolesIsRemoveEmpty(live: seq<string>)
    ensures RemoveEmpty(StringsJson(Map((l: string) => Some(l), live))) == StringsJson(Holes(live))
  {
    var a := StringsJson(Map((l: string) => Some(l), live)).elems;
    var b := StringsJson(Holes(live)).elems;
    forall i | 0 <= i < |a|
      ensures CleanElems(a)[i] == b[i]
    {
      assert a[i] == Some(JStr(live[i]));
    }
    assert CleanElems(a) == b;
  }

  /** The logins `filter` visits: holes are skipped. */
  function Present(a: seq<Option<string>>): (r: seq<string>)
    ensures forall l :: l in r <==> Some(l) in a
    ensures |r| <= |a|
    decreases |a|
  {
    if |a| == 0 then []
    else
      assert a == [a[0]] + a[1..];
      (if a[0].Some? then [a[0].value] else []) + Present(a[1..])
  }

  /** A login that `removeEmpty` keeps. */
  predicate NonEmpty(l: string) {
    l != ""
  }

  /** Skipping the holes `removeEmpty` left is filtering out the empty logins. */
  lemma {:induction false} PresentHoles(live: seq<string>)
    ensures Present(Holes(live)) == Filter(live, NonEmpty)
    decreases |live|
  {
    if |live| > 0 {
      assert Holes(live)[1..] == Holes(live[1..]);
      PresentHoles(live[1..]);
    }
  }

  /** Strict equality on logins serves as both identity and equality. */
  predicate SameLogin(a: string, b: string) {
    a == b
  }

  /**
   * The differences. A found login is truthy (an empty login cannot be found:
   * it became a hole), so `!find(..)` means "absent"; a desired '' login is
   * therefore always an update.
   */
  function Differences(live: seq<string>, desired: seq<string>): (r: Delta<string>)
    ensures forall l :: l in r.remove <==> l in live && l != "" && l !in desired
    ensures forall l :: l in r.update <==> l in desired && (l == "" || l !in live)
    ensures IsSubsequence(r.remove, live) && IsSubsequence(r.update, desired)
    ensures forall l :: multiset(r.remove)[l] == if l != "" && l !in desired then multiset(live)[l] else 0
    ensures forall l :: multiset(r.update)[l] == if l == "" || l !in live then multiset(desired)[l] else 0
    ensures forall l :: l in r.remove ==> l !in r.update
  {
    var current := Present(Holes(live));
    PresentHoles(live);
    RemovalFacts(live, desired);
    UpdateFacts(live, desired);
    Compute(current, desired, SameLogin, SameLogin)
  }

  /** The removals against the non-empty live logins, in terms of the live list. */
  lemma RemovalFacts(live: seq<string>, desired: seq<string>)
    ensures var r := Removals(Filter(live, NonEmpty), desired, SameLogin);
      && (forall l :: l in r <==> l in live && l != "" && l !in desired)
      && IsSubsequence(r, live)
      && forall l :: multiset(r)[l] == if l != "" && l !in desired then multiset(live)[l] else 0
  {
    var current := Filter(live, NonEmpty);
    FilterCount(live, NonEmpty);
    FilterIsSubsequence(live, NonEmpty);
    var r := Removals(current, desired, SameLogin);
    assert forall l :: Unmatched(l, desired, SameLogin) <==> l !in desired;
    SubsequenceTrans(r, current, live);
  }

  /** The updates against the non-empty live logins, in terms of the live list. */
  lemma UpdateFacts(live: seq<string>, desired: seq<string>)
    ensures var r := Updates(Filter(live, NonEmpty), desired, SameLogin);
      && (forall l :: l in r <==> l in desired && (l == "" || l !in live))
      && forall l :: multiset(r)[l] == if l == "" || l !in live then multiset(desired)[l] else 0
  {
    var current := Filter(live, NonEmpty);
    assert forall l :: Unequalled(l, current, SameLogin) <==> l == "" || l !in live;
  }

  /** One effect of the apply step. A batch is one `Promise.all`: all of its calls are issued, in no particular order. */
  datatype Effect = Batch(calls: multiset<Call>) | Warned(unremoved: seq<string>)

  /** What one run of `apply` did and returned. */
  datatype Outcome = Outcome(branch: Branch, diff: Delta<string>, effects: seq<Effect>, result: Result<seq<string>, Error>)

  /** The calls of a batch that the gateway rejects. */
  function Rejected(calls: multiset<Call>, rejects: Call -> bool): (r: set<Call>)
    ensures forall c :: c in r <==> c in calls && rejects(c)
  {
    set c | c in calls && rejects(c)
  }

  /** One add call per login of the list (a login listed twice is added twice). */
  function AddCalls(logins: seq<string>): multiset<Call> {
    multiset(Map((l: string) => AddOutsideCollaborator(l), logins))
  }

  /** One remove call per login of the list. */
  function RemoveCalls(logins: seq<string>): multiset<Call> {
    multiset(Map((l: string) => RemoveOutsideCollaborator(l), logins))
  }

  /** Every gateway write issued by a trace. */
  function Issued(effects: seq<Effect>): (r: multiset<Call>)
    ensures forall c :: c in r ==> exists i :: 0 <= i < |effects| && effects[i].Batch? && c in effects[i].calls
  {
    if |effects| == 0 then multiset{}
    else
      var rest := Issued(effects[1..]);
      assert forall c :: c in rest ==> exists i :: 1 <= i < |effects| && effects[i].Batch? && c in effects[i].calls by {
        forall c | c in rest ensures exists i :: 1 <= i < |effects| && effects[i].Batch? && c in effects[i].calls {
          var j :| 0 <= j < |effects[1..]| && effects[1..][j].Batch? && c in effects[1..][j].calls;
          assert effects[j + 1] == effects[1..][j];
        }
      }
      (if effects[0].Batch? then effects[0].calls else multiset{}) + rest
  }

  /**
   * The write step of `apply` once the differences `d` are known: in sync or
   * dry-run, nothing is written. Otherwise the add batch runs first; only if
   * every add succeeded does the `unknown_collaborators` behaviour pick a
   * remove batch, a warning, or (no case matching) nothing. Any rejection is
   * re-thrown; success returns the desired list.
   */
  function Write(d: Delta<string>, desired: seq<string>, dryRun: bool, behaviours: Option<Behaviours>,
                 rejects: Call -> bool): (r: Outcome)
    ensures r.diff == d
    ensures r.branch == BranchFor(!d.IsEmpty(), dryRun)
    ensures r.branch != Applied ==> r.effects == [] && r.result == Success(desired)
    ensures r.branch == Applied ==> 1 <= |r.effects| <= 2 && r.effects[0] == Batch(AddCalls(d.update))
    ensures |r.effects| == 2 ==> Rejected(r.effects[0].calls, rejects) == {} && behaviours.Some?
    ensures r.result.Success? ==> r.result.value == desired
  {
    var branch := BranchFor(!d.IsEmpty(), dryRun);
    if branch != Applied then Outcome(branch, d, [], Success(desired))
    else
      var adds := AddCalls(d.update);
      var addRejected := Rejected(adds, rejects);
      if addRejected != {} then Outcome(branch, d, [Batch(adds)], Failure(BatchRejected(addRejected)))
      else if behaviours.None? then Outcome(branch, d, [Batch(adds)], Failure(MissingBehaviours))
      else match DispositionOf(behaviours.value.unknownCollaborators)
        case RemoveUnknown =>
          var removes := RemoveCalls(d.remove);
          var removeRejected := Rejected(removes, rejects);
          Outcome(branch, d, [Batch(adds), Batch(removes)],
                  if removeRejected == {} then Success(desired) else Failure(BatchRejected(removeRejected)))
        case WarnUnknown => Outcome(branch, d, [Batch(adds), Warned(d.remove)], Success(desired))
        case NoCase => Outcome(branch, d, [Batch(adds)], Success(desired))
  }

  /** `apply`: compute the differences against the live list, then write. */
  function Apply(live: seq<string>, desired: seq<string>, dryRun: bool, behaviours: Option<Behaviours>,
                 rejects: Call -> bool): (r: Outcome)
    ensures r.diff == Differences(live, desired)
    ensures r.branch == BranchFor(!r.diff.IsEmpty(), dryRun)
    ensures r.branch != Applied ==> r.effects == [] && r.result == Success(desired)
    ensures r.branch == Applied ==> 1 <= |r.effects| <= 2 && r.effects[0] == Batch(AddCalls(r.diff.update))
    ensures |r.effects| == 2 ==> Rejected(r.effects[0].calls, rejects) == {} && behaviours.Some?
    ensures r.result.Success? ==> r.result.value == desired
  {
    Write(Differences(live, desired), desired, dryRun, behaviours, rejects)
  }

  /** A removal can only follow a warning-free, fully successful add batch. */
  lemma IssuedTrace(a: multiset<Call>, b: multiset<Call>, w: seq<string>)
    ensures Issued([Batch(a)]) == a
    ensures Issued([Batch(a), Batch(b)]) == a + b
    ensures Issued([Batch(a), Warned(w)]) == a
  {
    assert [Batch(a), Batch(b)][1..] == [Batch(b)];
    assert [Batch(a), Warned(w)][1..] == [Warned(w)];
  }

  /** The calls of `AddCalls` are adds of listed logins, counted as often as they are listed. */
  lemma AddCallsCount(logins: seq<string>)
    ensures forall l :: AddCalls(logins)[AddOutsideCollaborator(l)] == multiset(logins)[l]
    ensures forall c :: c in AddCalls(logins) ==> c.AddOutsideCollaborator? && c.login in logins
  {
    var f := (l: string) => AddOutsideCollaborator(l);
    forall l ensures AddCalls(logins)[AddOutsideCollaborator(l)] == multiset(logins)[l] {
      MapMultiset(f, logins, l);
    }
    forall c | c in AddCalls(logins) ensures c.AddOutsideCollaborator? && c.login in logins {
      var i :| 0 <= i < |Map(f, logins)| && Map(f, logins)[i] == c;
    }
  }

  /** The calls of `RemoveCalls` are removes of listed logins, counted as often as they are listed. */
  lemma RemoveCallsCount(logins: seq<string>)
    ensures forall l :: RemoveCalls(logins)[RemoveOutsideCollaborator(l)] == multiset(logins)[l]
    ensures forall c :: c in RemoveCalls(logins) ==> c.RemoveOutsideCollaborator? && c.login in logins
  {
    var f := (l: string) => RemoveOutsideCollaborator(l);
    forall l ensures RemoveCalls(logins)[RemoveOutsideCollaborator(l)] == multiset(logins)[l] {
      MapMultiset(f, logins, l);
    }
    forall c | c in RemoveCalls(logins) ensures c.RemoveOutsideCollaborator? && c.login in logins {
      var i :| 0 <= i < |Map(f, logins)| && Map(f, logins)[i] == c;
    }
  }

  /** The add batch went through and the behaviour is `remove`: the remove batch is issued. */
  predicate RemovesFollow(d: Delta<string>, behaviours: Option<Behaviours>, rejects: Call -> bool) {
    Rejected(AddCalls(d.update), rejects) == {} && behaviours.Some?
    && DispositionOf(behaviours.value.unknownCollaborators) == RemoveUnknown
  }

  /** The writes of a write step: the add batch, then the remove batch only if `RemovesFollow`. */
  lemma WriteIssued(d: Delta<string>, desired: seq<string>, dryRun: bool, behaviours: Option<Behaviours>, rejects: Call -> bool)
    ensures var r := Write(d, desired, dryRun, behaviours, rejects);
      Issued(r.effects) ==
        if r.branch != Applied then multiset{}
        else AddCalls(d.update) + if RemovesFollow(d, behaviours, rejects) then RemoveCalls(d.remove) else multiset{}
  {
    var r := Write(d, desired, dryRun, behaviours, rejects);
    var adds, removes := AddCalls(d.update), RemoveCalls(d.remove);
    IssuedTrace(adds, removes, d.remove);
    if r.branch != Applied {
      assert Issued([]) == multiset{};
    } else if Rejected(adds, rejects) != {} || behaviours.None? {
      assert r.effects == [Batch(adds)];
    } else if RemovesFollow(d, behaviours, rejects) {
      assert r.effects == [Batch(adds), Batch(removes)];
    } else {
      assert r.effects == [Batch(adds)] || r.effects == [Batch(adds), Warned(d.remove)];
    }
  }

  /** The writes of an apply-mode run: the add batch, then the remove batch only if `RemovesFollow`. */
  lemma IssuedCalls(live: seq<string>, desired: seq<string>, dryRun: bool, behaviours: Option<Behaviours>, rejects: Call -> bool)
    ensures var r := Apply(live, desired, dryRun, behaviours, rejects);
      Issued(r.effects) ==
        if r.branch != Applied then multiset{}
        else AddCalls(r.diff.update) + if RemovesFollow(r.diff, behaviours, rejects) then RemoveCalls(r.diff.remove) else multiset{}
  {
    WriteIssued(Differences(live, desired), desired, dryRun, behaviours, rejects);
  }

  /** In sync or in dry-run, no write is issued and the desired list is returned. */
  lemma QuietUnlessApplying(live: seq<string>, desired: seq<string>, dryRun: bool, behaviours: Option<Behaviours>, rejects: Call -> bool)
    requires dryRun || Differences(live, desired).IsEmpty()
    ensures Issued(Apply(live, desired, dryRun, behaviours, rejects).effects) == multiset{}
    ensures Apply(live, desired, dryRun, behaviours, rejects).result == Success(desired)
  {
    IssuedCalls(live, desired, dryRun, behaviours, rejects);
  }

  /** In apply mode, exactly one add call is issued per `update` login. */
  lemma OneAddPerUpdate(live: seq<string>, desired: seq<string>, behaviours: Option<Behaviours>, rejects: Call -> bool, l: string)
    requires !Differences(live, desired).IsEmpty()
    ensures Issued(Apply(live, desired, false, behaviours, rejects).effects)[AddOutsideCollaborator(l)]
      == multiset(Differences(live, desired).update)[l]
  {
    var d := Differences(live, desired);
    IssuedCalls(live, desired, false, behaviours, rejects);
    AddCallsCount(d.update);
    RemoveCallsCount(d.remove);
    assert AddOutsideCollaborator(l) !in RemoveCalls(d.remove);
  }

  /** A rejected add means no removal is issued, and the rejection is re-thrown. */
  lemma FailedAddsStopRemovals(live: seq<string>, desired: seq<string>, behaviours: Option<Behaviours>, rejects: Call -> bool)
    requires !Differences(live, desired).IsEmpty()
    requires exists l :: l in Differences(live, desired).update && rejects(AddOutsideCollaborator(l))
    ensures forall c :: c in Issued(Apply(live, desired, false, behaviours, rejects).effects) ==> c.AddOutsideCollaborator?
    ensures Apply(live, desired, false, behaviours, rejects).result.Failure?
  {
    var d := Differences(live, desired);
    var l :| l in d.update && rejects(AddOutsideCollaborator(l));
    WriteStopsOnFailedAdd(d, desired, behaviours, rejects, l);
  }

  /** The write-step form of `FailedAddsStopRemovals`. */
  lemma WriteStopsOnFailedAdd(d: Delta<string>, desired: seq<string>, behaviours: Option<Behaviours>, rejects: Call -> bool, l: string)
    requires !d.IsEmpty()
    requires l in d.update && rejects(AddOutsideCollaborator(l))
    ensures forall c :: c in Issued(Write(d, desired, false, behaviours, rejects).effects) ==> c.AddOutsideCollaborator?
    ensures Write(d, desired, false, behaviours, rejects).result.Failure?
  {
    var adds := AddCalls(d.update);
    AddCallsCount(d.update);
    assert adds[AddOutsideCollaborator(l)] > 0;
    assert AddOutsideCollaborator(l) in Rejected(adds, rejects);
    assert Write(d, desired, false, behaviours, rejects).effects == [Batch(adds)];
    IssuedTrace(adds, multiset{}, []);
  }

  /**
   * Under the remove policy, once every add was accepted, a rejected removal of
   * a non-empty undesired live login fails the run, after both batches were
   * issued, and names that call.
   */
  lemma FailedRemoveFails(live: seq<string>, desired: seq<string>, b: Behaviours, rejects: Call -> bool, l: string)
    requires b.unknownCollaborators == Some(PStr("remove"))
    requires forall x :: x in desired ==> !rejects(AddOutsideCollaborator(x))
    requires l in live && l != "" && l !in desired && rejects(RemoveOutsideCollaborator(l))
    ensures var r := Apply(live, desired, false, Some(b), rejects);
      && r.result.Failure? && r.result.error.BatchRejected?
      && RemoveOutsideCollaborator(l) in r.result.error.failed
      && |r.effects| == 2 && r.effects[1] == Batch(RemoveCalls(r.diff.remove))
  {
    var d := Differences(live, desired);
    AddCallsCount(d.update);
    assert Rejected(AddCalls(d.update), rejects) == {};
    WriteRemoveFails(d, desired, Some(b), rejects, l);
  }

  /** The write-step form of `FailedRemoveFails`. */
  lemma WriteRemoveFails(d: Delta<string>, desired: seq<string>, behaviours: Option<Behaviours>, rejects: Call -> bool, l: string)
    requires RemovesFollow(d, behaviours, rejects)
    requires l in d.remove && rejects(RemoveOutsideCollaborator(l))
    ensures var r := Write(d, desired, false, behaviours, rejects);
      && r.result.Failure? && r.result.error.BatchRejected?
      && RemoveOutsideCollaborator(l) in r.result.error.failed
      && |r.effects| == 2 && r.effects[1] == Batch(RemoveCalls(d.remove))
  {
    var removes := RemoveCalls(d.remove);
    RemoveCallsCount(d.remove);
    assert removes[RemoveOutsideCollaborator(l)] > 0;
    assert RemoveOutsideCollaborator(l) in Rejected(removes, rejects);
    assert !d.IsEmpty();
  }

  /** Behaviour `remove`, after a successful add batch, issues exactly one remove call per `remove` login. */
  lemma RemovePolicyRemoves(live: seq<string>, desired: seq<string>, b: Behaviours, rejects: Call -> bool, l: string)
    requires !Differences(live, desired).IsEmpty()
    requires b.unknownCollaborators == Some(PStr("remove"))
    requires forall x :: x in Differences(live, desired).update ==> !rejects(AddOutsideCollaborator(x))
    ensures Issued(Apply(live, desired, false, Some(b), rejects).effects)[RemoveOutsideCollaborator(l)]
      == multiset(Differences(live, desired).remove)[l]
  {
    var d := Differences(live, desired);
    AddCallsCount(d.update);
    RemoveCallsCount(d.remove);
    assert Rejected(AddCalls(d.update), rejects) == {};
    IssuedCalls(live, desired, false, Some(b), rejects);
    assert RemoveOutsideCollaborator(l) !in AddCalls(d.update);
  }

  /** Any behaviour other than `remove` never issues a remove call; `warn` reports the unremoved logins. */
  lemma OtherPoliciesKeep(live: seq<string>, desired: seq<string>, dryRun: bool, b: Behaviours, rejects: Call -> bool)
    requires b.unknownCollaborators != Some(PStr("remove"))
    ensures forall c :: c in Issued(Apply(live, desired, dryRun, Some(b), rejects).effects) ==> c.AddOutsideCollaborator?
    ensures var r := Apply(live, desired, dryRun, Some(b), rejects);
      b.unknownCollaborators == Some(PStr("warn")) && |r.effects| == 2 ==> r.effects[1] == Warned(r.diff.remove)
  {
    var d := Differences(live, desired);
    AddCallsCount(d.update);
    IssuedCalls(live, desired, dryRun, Some(b), rejects);
  }

  /** Writes are safe: only missing desired logins are added, only undesired live logins are removed. */
  lemma WritesTargetTheDifference(live: seq<string>, desired: seq<string>, dryRun: bool, behaviours: Option<Behaviours>, rejects: Call -> bool)
    ensures forall c :: c in Issued(Apply(live, desired, dryRun, behaviours, rejects).effects) ==>
      if c.AddOutsideCollaborator? then c.login in desired && (c.login == "" || c.login !in live)
      else c.login in live && c.login != "" && c.login !in desired
  {
    var d := Differences(live, desired);
    AddCallsCount(d.update);
    RemoveCallsCount(d.remove);
    IssuedCalls(live, desired, dryRun, behaviours, rejects);
  }

  /** A failed write step was applying, and failed on a missing behaviours record or on issued, rejected calls. */
  lemma WriteFailures(d: Delta<string>, desired: seq<string>, dryRun: bool, behaviours: Option<Behaviours>, rejects: Call -> bool)
    ensures var r := Write(d, desired, dryRun, behaviours, rejects);
      r.result.Failure? ==>
        && r.branch == Applied
        && (|| r.result.error == MissingBehaviours
            || (&& r.result.error.BatchRejected?
                && r.result.error.failed != {}
                && forall c :: c in r.result.error.failed ==> c in Issued(r.effects) && rejects(c)))
  {
    var r := Write(d, desired, dryRun, behaviours, rejects);
    var adds, removes := AddCalls(d.update), RemoveCalls(d.remove);
    IssuedTrace(adds, removes, d.remove);
    if r.branch == Applied && Rejected(adds, rejects) != {} {
      assert r.effects == [Batch(adds)];
    } else if r.branch == Applied && behaviours.Some? && RemovesFollow(d, behaviours, rejects) {
      assert r.effects == [Batch(adds), Batch(removes)];
    }
  }

  /** A failure is re-thrown only in apply mode, and names calls that were issued and rejected. */
  lemma FailuresComeFromTheGateway(live: seq<string>, desired: seq<string>, dryRun: bool, behaviours: Option<Behaviours>, rejects: Call -> bool)
    ensures var r := Apply(live, desired, dryRun, behaviours, rejects);
      r.result.Failure? ==>
        && r.branch == Applied
        && (|| r.result.error == MissingBehaviours
            || (&& r.result.error.BatchRejected?
                && r.result.error.failed != {}
                && forall c :: c in r.result.error.failed ==> c in Issued(r.effects) && rejects(c)))
  {
    WriteFailures(Differences(live, desired), desired, dryRun, behaviours, rejects);
  }

  /** A desired empty login is never found live (it became a hole), so it is always an update. */
  lemma EmptyLoginAlwaysUpdated(live: seq<string>, desired: seq<string>)
    requires "" in desired
    ensures "" in Differences(live, desired).update
  {
  }
}

=== FILE: diff.dfy ===
/**
 * The reconciliation primitive every reconciler instantiates: a current list
 * and a desired list are compared with an identity predicate `exist` and an
 * equality predicate `same`, both applied as `(current, desired)`.
 */
module Diff {
  import opened Wrappers
  import opened Seqs

  /** `remove`: live entries to drop; `update`: desired entries to create or modify. */
  datatype Delta<T> = Delta(remove: seq<T>, update: seq<T>) {
    predicate IsEmpty() {
      |remove| == 0 && |update| == 0
    }
  }

  /** Which branch a reconciler took: already in sync, out of sync in dry-run, out of sync applied. */
  datatype Branch = InSync | DryRun | Applied

  /** What a reconciler returns: the branch it took, the differences it found and the list it resolves to. */
  datatype Report<D, T> = Report(branch: Branch, diff: D, value: seq<T>)

  /** The branch taken for a difference set and a dry-run flag. */
  function BranchFor(outOfSync: bool, dryRun: bool): (b: Branch)
    ensures b == InSync <==> !outOfSync
    ensures b == DryRun <==> outOfSync && dryRun
    ensures b == Applied <==> outOfSync && !dryRun
  {
    if !outOfSync then InSync else if dryRun then DryRun else Applied
  }

  /** No desired entry shares `c`'s identity. */
  ghost predicate Unmatched<T(!new)>(c: T, desired: seq<T>, exist: (T, T) -> bool) {
    forall d :: d in desired ==> !exist(c, d)
  }

  /** No current entry equals `d`. */
  ghost predicate Unequalled<T(!new)>(d: T, current: seq<T>, same: (T, T) -> bool) {
    forall c :: c in current ==> !same(c, d)
  }

  /** `current.filter(c => !desired.find(d => exist(c, d)))`: list entries are records, so a found entry is truthy. */
  function Removals<T(!new)>(current: seq<T>, desired: seq<T>, exist: (T, T) -> bool): (r: seq<T>)
    ensures forall c :: c in r <==> c in current && Unmatched(c, desired, exist)
    ensures forall c :: multiset(r)[c] == if Unmatched(c, desired, exist) then multiset(current)[c] else 0
    ensures IsSubsequence(r, current)
  {
    var p := c => Find(desired, d => exist(c, d)).None?;
    assert forall c :: p(c) == Unmatched(c, desired, exist);
    FilterIsSubsequence(current, p);
    FilterCount(current, p);
    Filter(current, p)
  }

  /** `desired.filter(d => !current.find(c => same(c, d)))`. */
  function Updates<T(!new)>(current: seq<T>, desired: seq<T>, same: (T, T) -> bool): (r: seq<T>)
    ensures forall d :: d in r <==> d in desired && Unequalled(d, current, same)
    ensures forall d :: multiset(r)[d] == if Unequalled(d, current, same) then multiset(desired)[d] else 0
    ensures IsSubsequence(r, desired)
  {
    var p := d => Find(current, c => same(c, d)).None?;
    assert forall d :: p(d) == Unequalled(d, current, same);
    FilterIsSubsequence(desired, p);
    FilterCount(desired, p);
    Filter(desired, p)
  }

  /** The generic diff: removals by identity, updates by equality. */
  function Compute<T(!new)>(current: seq<T>, desired: seq<T>, exist: (T, T) -> bool, same: (T, T) -> bool): (r: Delta<T>)
    ensures forall c :: c in r.remove <==> c in current && Unmatched(c, desired, exist)
    ensures forall d :: d in r.update <==> d in desired && Unequalled(d, current, same)
    ensures forall c, d :: c in r.remove && d in r.update ==> !exist(c, d)
  {
    Delta(Removals(current, desired, exist), Updates(current, desired, same))
  }

  /** A list compared with itself gives an empty difference when identity and equality are reflexive. */
  lemma SelfDiffEmpty<T(!new)>(s: seq<T>, exist: (T, T) -> bool, same: (T, T) -> bool)
    requires forall x :: x in s ==> exist(x, x) && same(x, x)
    ensures Compute(s, s, exist, same).IsEmpty()
  {
    var r := Compute(s, s, exist, same);
    assert forall x :: x !in r.remove && x !in r.update;
  }

  /** When equality implies identity, a desired entry with a new identity is always in `update`. */
  lemma NewIdentityUpdated<T(!new)>(current: seq<T>, desired: seq<T>, exist: (T, T) -> bool, same: (T, T) -> bool, d: T)
    requires forall c, x :: same(c, x) ==> exist(c, x)
    requires d in desired && forall c :: c in current ==> !exist(c, d)
    ensures d in Compute(current, desired, exist, same).update
  {
  }

  /** A desired entry equal to some current entry appears in neither list (identity being reflexive). */
  lemma MatchedInNeither<T(!new)>(current: seq<T>, desired: seq<T>, exist: (T, T) -> bool, same: (T, T) -> bool, c: T, d: T)
    requires c in current && d in desired && same(c, d) && exist(d, d)
    ensures d !in Compute(current, desired, exist, same).remove
    ensures d !in Compute(current, desired, exist, same).update
  {
  }

  /** The diff is empty exactly when every live identity is desired and every desired entry has an equal live one. */
  lemma EmptyIff<T(!new)>(current: seq<T>, desired: seq<T>, exist: (T, T) -> bool, same: (T, T) -> bool)
    ensures Compute(current, desired, exist, same).IsEmpty() <==>
      (forall c :: c in current ==> exists d :: d in desired && exist(c, d)) &&
      (forall d :: d in desired ==> exists c :: c in current && same(c, d))
  {
    var r := Compute(current, desired, exist, same);
    assert r.remove != [] ==> r.remove[0] in r.remove;
    assert r.update != [] ==> r.update[0] in r.update;
  }

  /**
   * The nested diff of a parent present on both sides, where either child
   * list may be missing: `cur?.filter(c => !des?.find(..)) || []` and
   * `des?.filter(d => !cur?.find(..)) || []`.
   */
  function Nested<T(!new)>(current: Option<seq<T>>, desired: Option<seq<T>>, exist: (T, T) -> bool, same: (T, T) -> bool): (r: Delta<T>)
    ensures current.None? ==> r.remove == []
    ensures desired.None? ==> r.update == []
    ensures current.Some? && desired.None? ==> r.remove == current.value
    ensures current.None? && desired.Some? ==> r.update == desired.value
  {
    var pr := c => !(desired.Some? && Find(desired.value, d => exist(c, d)).Some?);
    var pu := d => !(current.Some? && Find(current.value, c => same(c, d)).Some?);
    if current.Some? && desired.None? then FilterAll(current.value, pr); Delta(current.value, [])
    else if current.None? && desired.Some? then FilterAll(desired.value, pu); Delta([], desired.value)
    else Delta(if current.None? then [] else Filter(current.value, pr),
               if desired.None? then [] else Filter(desired.value, pu))
  }

  /** A missing child list behaves exactly like an empty one. */
  lemma NestedIsCompute<T(!new)>(current: Option<seq<T>>, desired: Option<seq<T>>, exist: (T, T) -> bool, same: (T, T) -> bool)
    ensures Nested(current, desired, exist, same) == Compute(current.GetOr([]), desired.GetOr([]), exist, same)
  {
    var c, d := current.GetOr([]), desired.GetOr([]);
    var pr := x => !(desired.Some? && Find(desired.value, y => exist(x, y)).Some?);
    var pu := y => !(current.Some? && Find(current.value, x => same(x, y)).Some?);
    FilterCongruent(c, pr, x => Find(d, y => exist(x, y)).None?);
    FilterCongruent(d, pu, y => Find(c, x => same(x, y)).None?);
    if current.Some? && desired.None? {
      FilterAll(c, x => Find(d, y => exist(x, y)).None?);
      FilterAll(current.value, pr);
    } else if current.None? && desired.Some? {
      FilterAll(d, y => Find(c, x => same(x, y)).None?);
      FilterAll(desired.value, pu);
    }
  }

  /** A per-parent nested diff, reported under the parent's identity. */
  datatype Tagged<K, T> = Tagged(parent: K, delta: Delta<T>)

  /** `i` is the first index of `s` whose key is `k`: the element `find` returns. */
  predicate FirstKey<P, K(==)>(s: seq<P>, key: P -> K, k: K, i: int) {
    0 <= i < |s| && key(s[i]) == k && forall j :: 0 <= j < i ==> key(s[j]) != k
  }

  /**
   * The nested entry for one desired parent `t`: looked up by key among the
   * current parents (first match), reported only when the nested diff is non-empty.
   */
  function Entry<P(!new), K(==,!new), T(!new)>(current: seq<P>, t: P, key: P -> K, children: P -> Option<seq<T>>,
                                           exist: (T, T) -> bool, same: (T, T) -> bool): (r: Option<Tagged<K, T>>)
    ensures r.Some? ==> r.value.parent == key(t) && !r.value.delta.IsEmpty()
    ensures r.Some? ==> exists c :: c in current && key(c) == key(t)
    ensures (forall c :: c in current ==> key(c) != key(t)) ==> r.None?
    ensures forall i :: FirstKey(current, key, key(t), i) ==>
      && (r.Some? <==> !Nested(children(current[i]), children(t), exist, same).IsEmpty())
      && (r.Some? ==> r.value.delta == Nested(children(current[i]), children(t), exist, same))
  {
    var p := c => key(c) == key(t);
    FindFirst(current, p);
    match Find(current, p)
    case None => None
    case Some(c) =>
      var d := Nested(children(c), children(t), exist, same);
      if d.IsEmpty() then None else Some(Tagged(key(t), d))
  }

  function Parents<K, T>(r: seq<Tagged<K, T>>): seq<K> {
    Map((e: Tagged<K, T>) => e.parent, r)
  }

  /** `desired.forEach(t => { ... if (nonEmpty) list.push(entry) })`: one entry per desired parent, in desired order. */
  function PerParent<P(!new), K(==,!new), T(!new)>(current: seq<P>, desired: seq<P>, key: P -> K, children: P -> Option<seq<T>>,
                                               exist: (T, T) -> bool, same: (T, T) -> bool): (r: seq<Tagged<K, T>>)
    ensures forall e :: e in r <==> exists t :: t in desired && Entry(current, t, key, children, exist, same) == Some(e)
    ensures IsSubsequence(Parents(r), Map(key, desired))
    decreases |desired|
  {
    if |desired| == 0 then []
    else
      var t := desired[0];
      var rest := PerParent(current, desired[1..], key, children, exist, same);
      var e := Entry(current, t, key, children, exist, same);
      PerParentStep(current, desired, key, children, exist, same, rest);
      if e.Some? then [e.value] + rest else rest
  }

  /** The inductive step of `PerParent`: prepending the first desired parent's entry. */
  lemma PerParentStep<P(!new), K(!new), T(!new)>(current: seq<P>, desired: seq<P>, key: P -> K, children: P -> Option<seq<T>>,
                                                exist: (T, T) -> bool, same: (T, T) -> bool, rest: seq<Tagged<K, T>>)
    requires |desired| > 0
    requires forall e :: e in rest <==> exists t :: t in desired[1..] && Entry(current, t, key, children, exist, same) == Some(e)
    requires IsSubsequence(Parents(rest), Map(key, desired[1..]))
    ensures var e := Entry(current, desired[0], key, children, exist, same);
      var r := if e.Some? then [e.value] + rest else rest;
      && (forall x :: x in r <==> exists t :: t in desired && Entry(current, t, key, children, exist, same) == Some(x))
      && IsSubsequence(Parents(r), Map(key, desired))
  {
    var t := desired[0];
    var e := Entry(current, t, key, children, exist, same);
    assert desired == [t] + desired[1..];
    assert forall x :: x in desired <==> x == t || x in desired[1..];
    var m := Map(key, desired);
    assert m[1..] == Map(key, desired[1..]);
    if e.Some? {
      var r := [e.value] + rest;
      assert Parents(r)[0] == m[0];
      assert Parents(r)[1..] == Parents(rest);
    }
  }

  /** Every nested entry is non-empty and names a parent present on both sides. */
  lemma PerParentEntries<P(!new), K(!new), T(!new)>(current: seq<P>, desired: seq<P>, key: P -> K, children: P -> Option<seq<T>>,
                                                   exist: (T, T) -> bool, same: (T, T) -> bool)
    ensures forall e :: e in PerParent(current, desired, key, children, exist, same) ==>
      && !e.delta.IsEmpty()
      && (exists c :: c in current && key(c) == e.parent)
      && (exists t :: t in desired && key(t) == e.parent)
    ensures IsSubsequence(Parents(PerParent(current, desired, key, children, exist, same)), Map(key, desired))
  {
  }

  /** With unique keys, looking up a parent's own key finds that parent. */
  lemma FindUnique<P(!new), K(!new)>(s: seq<P>, key: P -> K, t: P)
    requires forall i, j :: 0 <= i < j < |s| ==> key(s[i]) != key(s[j])
    requires t in s
    ensures Find(s, c => key(c) == key(t)) == Some(t)
  {
    var r := Find(s, c => key(c) == key(t));
    var i :| 0 <= i < |s| && s[i] == r.value && forall j :: 0 <= j < i ==> key(s[j]) != key(t);
    var j :| 0 <= j < |s| && s[j] == t;
    if i < j {
    } else if j < i {
    }
  }

  /** A desired list with no entries contributes no nested differences. */
  lemma {:induction false} PerParentNone<P(!new), K(!new), T(!new)>(current: seq<P>, desired: seq<P>, key: P -> K,
      children: P -> Option<seq<T>>, exist: (T, T) -> bool, same: (T, T) -> bool)
    requires forall t :: t in desired ==> Entry(current, t, key, children, exist, same).None?
    ensures PerParent(current, desired, key, children, exist, same) == []
    decreases |desired|
  {
    if |desired| > 0 {
      assert desired[0] in desired;
      assert forall t :: t in desired[1..] ==> t in desired;
      PerParentNone(current, desired[1..], key, children, exist, same);
    }
  }

  /** A parent found under its own key has no nested differences with itself. */
  lemma SelfEntryNone<P(!new), K(!new), T(!new)>(s: seq<P>, t: P, key: P -> K, children: P -> Option<seq<T>>,
      exist: (T, T) -> bool, same: (T, T) -> bool)
    requires forall i, j :: 0 <= i < j < |s| ==> key(s[i]) != key(s[j])
    requires t in s
    requires forall x :: exist(x, x) && same(x, x)
    ensures Entry(s, t, key, children, exist, same).None?
  {
    FindUnique(s, key, t);
    NestedIsCompute(children(t), children(t), exist, same);
    SelfDiffEmpty(children(t).GetOr([]), exist, same);
  }

  /** With unique keys and reflexive child predicates, a parent list has no nested differences against itself. */
  lemma SelfPerParentEmpty<P(!new), K(!new), T(!new)>(s: seq<P>, key: P -> K, children: P -> Option<seq<T>>,
      exist: (T, T) -> bool, same: (T, T) -> bool)
    requires forall i, j :: 0 <= i < j < |s| ==> key(s[i]) != key(s[j])
    requires forall x :: exist(x, x) && same(x, x)
    ensures PerParent(s, s, key, children, exist, same) == []
  {
    forall t | t in s
      ensures Entry(s, t, key, children, exist, same).None?
    {
      SelfEntryNone(s, t, key, children, exist, same);
    }
    PerParentNone(s, s, key, children, exist, same);
  }
}

=== FILE: gateway.dfy ===
/** The boundary with the remote management API: the writes the core issues and the errors it reports. */
module Gateway {

  /** A mutating call on the organisation's outside collaborators. */
  datatype Call = AddOutsideCollaborator(login: string) | RemoveOutsideCollaborator(login: string)

  /** An error a reconciler or the dispatcher records. */
  datatype Error =
    | UnknownCommand(command: string)
    | Invalid(violations: seq<string>)
    | BatchRejected(failed: set<Call>)
    | MissingBehaviours
    | Raised(reason: string)
      /** A desired list that is missing or `null`: reading it raises a `TypeError`. */
    | NotAList(part: string)
}

=== FILE: gops.dfy ===
/**
 * The first orchestration (src/gops.ts): the organisation settings, members,
 * teams and repositories are reconciled one after the other, each against its
 * part of the desired document.
 */
module Gops {
  import opened Wrappers
  import opened Json
  import opened Gateway
  import M = Members
  import T = Teams
  import R = Repositories
  import opened Organizations

  /**
   * `{ org, members, teams, repos }`. Only `org` is required by the schema, and
   * a key written without a value reads as `null`: a part is `None` when it is
   * missing or `null`.
   */
  datatype Config = Config(org: Option<Organization>, members: Option<seq<M.Member>>,
                           teams: Option<seq<T.Team>>, repos: Option<seq<R.Repository>>)

  /** The four reconcilers, in the order the orchestration runs them. */
  datatype Stage = OrgStage | MembersStage | TeamsStage | ReposStage

  const Order: seq<Stage> := [OrgStage, MembersStage, TeamsStage, ReposStage]

  /** A reconciler call, with the dry-run flag it received. */
  datatype Invocation = Invocation(stage: Stage, dryRun: bool)

  /**
   * Each reconciler as a function of its desired part and the dry-run flag;
   * a `Failure` is a rejection the reconciler lets escape.
   */
  datatype Reconcilers = Reconcilers(
    org: (Option<Organization>, bool) -> Result<Option<Organization>, Error>,
    members: (Option<seq<M.Member>>, bool) -> Result<seq<M.Member>, Error>,
    teams: (Option<seq<T.Team>>, bool) -> Result<seq<T.Team>, Error>,
    repos: (Option<seq<R.Repository>>, bool) -> Result<seq<R.Repository>, Error>)

  /** The reconcilers called, in order, and the updated document or the error that stopped the run. */
  datatype Outcome = Outcome(invoked: seq<Invocation>, result: Result<Config, Error>)

  /** The error a stage's reconciler raises on its part of the document, if any. */
  function StageError(rec: Reconcilers, gops: Config, dryRun: bool, s: Stage): Option<Error> {
    match s
    case OrgStage => var o := rec.org(gops.org, dryRun); if o.Failure? then Some(o.error) else None
    case MembersStage => var o := rec.members(gops.members, dryRun); if o.Failure? then Some(o.error) else None
    case TeamsStage => var o := rec.teams(gops.teams, dryRun); if o.Failure? then Some(o.error) else None
    case ReposStage => var o := rec.repos(gops.repos, dryRun); if o.Failure? then Some(o.error) else None
  }

  /** The first `n` stages, called with `dryRun`. */
  function Trace(n: nat, dryRun: bool): (r: seq<Invocation>)
    requires n <= |Order|
    ensures |r| == n && forall i :: 0 <= i < n ==> r[i] == Invocation(Order[i], dryRun)
  {
    seq(n, i requires 0 <= i < n => Invocation(Order[i], dryRun))
  }

  lemma FullTrace(dryRun: bool)
    ensures Trace(4, dryRun) == [Invocation(OrgStage, dryRun), Invocation(MembersStage, dryRun),
                                 Invocation(TeamsStage, dryRun), Invocation(ReposStage, dryRun)]
  {
  }

  /** Every reconciler accepts its part of the document. */
  predicate AllSucceed(rec: Reconcilers, gops: Config, dryRun: bool) {
    rec.org(gops.org, dryRun).Success? && rec.members(gops.members, dryRun).Success?
    && rec.teams(gops.teams, dryRun).Success? && rec.repos(gops.repos, dryRun).Success?
  }

  /**
   * `apply`: org, members, teams, repos, each awaited before the next; nothing
   * catches, so the first failure ends the run.
   */
  function Apply(rec: Reconcilers, gops: Config, dryRun: bool): (r: Outcome)
    ensures 1 <= |r.invoked| <= |Order|
    ensures forall i :: 0 <= i < |r.invoked| ==> r.invoked[i] == Invocation(Order[i], dryRun)
    ensures forall i :: 0 <= i < |r.invoked| - 1 ==> StageError(rec, gops, dryRun, Order[i]).None?
    ensures r.result.Failure? ==> StageError(rec, gops, dryRun, Order[|r.invoked| - 1]) == Some(r.result.error)
    ensures r.result.Success? <==> AllSucceed(rec, gops, dryRun)
    ensures AllSucceed(rec, gops, dryRun) ==> |r.invoked| == |Order| && r.result.Success? && r.result.value == Config(rec.org(gops.org, dryRun).value,
      Some(rec.members(gops.members, dryRun).value), Some(rec.teams(gops.teams, dryRun).value), Some(rec.repos(gops.repos, dryRun).value))
  {
    match rec.org(gops.org, dryRun)
    case Failure(e) => Outcome(Trace(1, dryRun), Failure(e))
    case Success(org) =>
      match rec.members(gops.members, dryRun)
      case Failure(e) => Outcome(Trace(2, dryRun), Failure(e))
      case Success(members) =>
        match rec.teams(gops.teams, dryRun)
        case Failure(e) => Outcome(Trace(3, dryRun), Failure(e))
        case Success(teams) =>
          match rec.repos(gops.repos, dryRun)
          case Failure(e) => Outcome(Trace(4, dryRun), Failure(e))
          case Success(repos) => Outcome(Trace(4, dryRun), Success(Config(org, Some(members), Some(teams), Some(repos))))
  }

  /** A failing stage stops the run there: no later reconciler is called. */
  lemma FailureStopsLaterStages(rec: Reconcilers, gops: Config, dryRun: bool, i: nat)
    requires i < |Order| && StageError(rec, gops, dryRun, Order[i]).Some?
    ensures |Apply(rec, gops, dryRun).invoked| <= i + 1
    ensures Apply(rec, gops, dryRun).result.Failure?
  {
  }

  /* ---------------- The reconcilers of this model ---------------- */

  /** The live state the reconcilers fetch. */
  datatype Live = Live(members: seq<M.Member>, teams: seq<T.Team>, repos: seq<R.Repository>)

  /**
   * The reconcilers this model defines, reading `live`. The organisation
   * reconciler returns its desired record in every branch; its comparison is
   * not part of this model. A missing list fails: `members.filter` and
   * `removeEmpty`'s `Object.keys` raise on `undefined` and `null`.
   */
  function Modelled(live: Live): Reconcilers {
    Reconcilers(
      (o: Option<Organization>, d: bool) => Success(o),
      (ms: Option<seq<M.Member>>, d: bool) =>
        if ms.None? then Failure(NotAList("members")) else Success(M.Reconcile(live.members, ms.value, d).value),
      (ts: Option<seq<T.Team>>, d: bool) =>
        if ts.None? then Failure(NotAList("teams")) else Success(T.Reconcile(live.teams, ts.value, d).value),
      (rs: Option<seq<R.Repository>>, d: bool) =>
        if rs.None? then Failure(NotAList("repos")) else Success(R.Reconcile(live.repos, rs.value, d).value))
  }

  /**
   * With this model's reconcilers and every list present, every stage runs and
   * the result is the desired document, with its teams and repositories
   * normalised in place and its members as written.
   */
  lemma ModelledApply(live: Live, gops: Config, dryRun: bool)
    requires gops.members.Some? && gops.teams.Some? && gops.repos.Some?
    ensures Apply(Modelled(live), gops, dryRun).invoked == [Invocation(OrgStage, dryRun), Invocation(MembersStage, dryRun),
                                                            Invocation(TeamsStage, dryRun), Invocation(ReposStage, dryRun)]
    ensures Apply(Modelled(live), gops, dryRun).result
         == Success(Config(gops.org, gops.members, Some(Seqs.Map(T.Normalize, gops.teams.value)),
                           Some(Seqs.Map(R.Normalize, gops.repos.value))))
  {
    var rec := Modelled(live);
    assert AllSucceed(rec, gops, dryRun);
    assert rec.members(gops.members, dryRun).value == gops.members.value;
    assert rec.teams(gops.teams, dryRun).value == Seqs.Map(T.Normalize, gops.teams.value);
    assert rec.repos(gops.repos, dryRun).value == Seqs.Map(R.Normalize, gops.repos.value);
    assert Apply(rec, gops, dryRun).invoked == Trace(4, dryRun);
    FullTrace(dryRun);
  }

  /** The index in `Order` of the first missing list, if any. */
  function FirstMissing(gops: Config): (r: Option<nat>)
    ensures r.Some? ==> 1 <= r.value < |Order|
    ensures r.None? <==> gops.members.Some? && gops.teams.Some? && gops.repos.Some?
  {
    if gops.members.None? then Some(1) else if gops.teams.None? then Some(2) else if gops.repos.None? then Some(3) else None
  }

  /**
   * With this model's reconcilers, a missing or `null` list ends the run at its
   * stage with a `TypeError`: the stages before it ran, none after it.
   */
  lemma ModelledMissingList(live: Live, gops: Config, dryRun: bool)
    requires !(gops.members.Some? && gops.teams.Some? && gops.repos.Some?)
    ensures var r := Apply(Modelled(live), gops, dryRun);
      && |r.invoked| == FirstMissing(gops).value + 1
      && r.result == Failure(NotAList(if gops.members.None? then "members" else if gops.teams.None? then "teams" else "repos"))
  {
    var rec := Modelled(live);
    var r := Apply(rec, gops, dryRun);
    var k := FirstMissing(gops).value;
    assert StageError(rec, gops, dryRun, Order[k]).Some?;
    FailureStopsLaterStages(rec, gops, dryRun, k);
    forall i | 0 <= i < k ensures StageError(rec, gops, dryRun, Order[i]).None? {
    }
  }
}

=== FILE: gorc.dfy ===
/**
 * The second orchestration and the command dispatcher (src/gorc.ts): `run`
 * selects `init`, `validate`, `dry-run` or `apply` by name and gathers every
 * error into its output record instead of throwing.
 */
module Gorc {
  import opened Wrappers
  import opened Gateway
  import opened Organizations
  import opened Behaviours
  import M = Members
  import T = Teams

  /**
   * `{ org, members, collaborators, teams, behaviours }`. Any part may be
   * missing (or `null`): an empty configuration file reads as `{}`.
   */
  datatype Gorc = Gorc(org: Option<Organization>, members: Option<seq<M.Member>>, collaborators: Option<seq<string>>,
                       teams: Option<seq<T.Team>>, behaviours: Option<Behaviours>)

  /** The document an empty configuration file falls back to. */
  const Empty: Gorc := Gorc(None, None, None, None, None)

  /** The two reconcilers this orchestration runs. */
  datatype Stage = OrgStage | MembersStage

  /** A reconciler call, with the dry-run flag it received. */
  datatype Invocation = Invocation(stage: Stage, dryRun: bool)

  /** The organisation reconciler, and the members reconciler which also receives the behaviours. */
  datatype Reconcilers = Reconcilers(
    org: (Option<Organization>, bool) -> Result<Option<Organization>, Error>,
    members: (Option<seq<M.Member>>, bool, Option<Behaviours>) -> Result<seq<M.Member>, Error>)

  /** The reconcilers called, in order, and the updated document or the error that escaped. */
  datatype Outcome = Outcome(invoked: seq<Invocation>, result: Result<Gorc, Error>)

  /**
   * `apply`: the organisation, then the members; the collaborator and team
   * reconcilers are not called, so those lists come back empty, and the
   * behaviours are passed through.
   */
  function Apply(rec: Reconcilers, gorc: Gorc, dryRun: bool): (r: Outcome)
    ensures r.invoked == [Invocation(OrgStage, dryRun)] || r.invoked == [Invocation(OrgStage, dryRun), Invocation(MembersStage, dryRun)]
    ensures |r.invoked| == 1 <==> rec.org(gorc.org, dryRun).Failure?
    ensures r.result.Success? <==> rec.org(gorc.org, dryRun).Success? && rec.members(gorc.members, dryRun, gorc.behaviours).Success?
    ensures r.result.Failure? ==> r.result.error == if |r.invoked| == 1 then rec.org(gorc.org, dryRun).error
                                                  else rec.members(gorc.members, dryRun, gorc.behaviours).error
    ensures r.result.Success? ==> r.result.value == Gorc(rec.org(gorc.org, dryRun).value,
      Some(rec.members(gorc.members, dryRun, gorc.behaviours).value), Some([]), Some([]), gorc.behaviours)
  {
    match rec.org(gorc.org, dryRun)
    case Failure(e) => Outcome([Invocation(OrgStage, dryRun)], Failure(e))
    case Success(org) =>
      var calls := [Invocation(OrgStage, dryRun), Invocation(MembersStage, dryRun)];
      match rec.members(gorc.members, dryRun, gorc.behaviours)
      case Failure(e) => Outcome(calls, Failure(e))
      case Success(members) => Outcome(calls, Success(Gorc(org, Some(members), Some([]), Some([]), gorc.behaviours)))
  }

  /** What the schema validator reports: its verdict and, possibly, the violations it found. */
  datatype Verdict = Verdict(valid: bool, errors: Option<seq<string>>)

  /** `validate`: throws when the validator rejects and lists violations, otherwise returns its verdict. */
  function Validate(v: Verdict): (r: Result<bool, Error>)
    ensures r.Failure? <==> !v.valid && v.errors.Some?
    ensures r.Failure? ==> r.error == Invalid(v.errors.value)
    ensures r.Success? ==> r.value == v.valid
  {
    if !v.valid && v.errors.Some? then Failure(Invalid(v.errors.value)) else Success(v.valid)
  }

  /** When the validator always lists violations on a rejection, `validate` returns `true` or throws. */
  lemma ValidateTrueOrThrows(v: Verdict)
    requires !v.valid ==> v.errors.Some?
    ensures Validate(v) == Success(true) || Validate(v) == Failure(Invalid(v.errors.value))
  {
  }

  /** A validator that rejects without listing violations makes `validate` return `false` without throwing. */
  lemma SilentRejectionReturnsFalse()
    ensures Validate(Verdict(false, None)) == Success(false)
  {
  }

  /** `{ org, gorc?, valid?, errors }`. */
  datatype Output = Output(org: string, gorc: Option<Gorc>, valid: Option<bool>, errors: seq<Error>)

  /** What the commands need from outside: the result of `init` (which reads the gateway and writes the file), the validator's verdict and the reconcilers. */
  datatype Env = Env(init: Result<Gorc, Error>, verdict: Verdict, rec: Reconcilers)

  /** The output record and the reconcilers the command called. */
  datatype RunOutcome = RunOutcome(output: Output, invoked: seq<Invocation>)

  /** The output of a command that produced a document, or the error it raised. */
  function Produced(org: string, r: Result<Gorc, Error>): (o: Output)
    ensures o.org == org && o.valid.None?
    ensures o.gorc.Some? <==> r.Success?
    ensures r.Success? ==> o.gorc.value == r.value && o.errors == []
    ensures r.Failure? ==> o.errors == [r.error]
  {
    match r
    case Success(g) => Output(org, Some(g), None, [])
    case Failure(e) => Output(org, None, None, [e])
  }

  /** `run`: dispatch on the command name; an unknown name or an escaping error is recorded in `errors`. */
  function Run(org: string, cmd: string, gorc: Gorc, env: Env): (r: RunOutcome)
    ensures r.output.org == org
    ensures |r.output.errors| <= 1
    ensures r.output.gorc.Some? ==> r.output.valid.None? && r.output.errors == []
    ensures r.output.valid.Some? ==> cmd == "validate" && r.output.errors == [] && r.output.valid == Some(env.verdict.valid)
    ensures r.invoked != [] <==> cmd == "dry-run" || cmd == "apply"
    ensures forall i :: i in r.invoked ==> (i.dryRun <==> cmd == "dry-run")
    ensures cmd !in {"init", "validate", "dry-run", "apply"} ==>
      r.output == Output(org, None, None, [UnknownCommand(cmd)])
  {
    if cmd == "init" then
      RunOutcome(Produced(org, env.init), [])
    else if cmd == "validate" then
      match Validate(env.verdict)
      case Success(v) => RunOutcome(Output(org, None, Some(v), []), [])
      case Failure(e) => RunOutcome(Output(org, None, None, [e]), [])
    else if cmd == "dry-run" then
      var a := Apply(env.rec, gorc, true);
      RunOutcome(Produced(org, a.result), a.invoked)
    else if cmd == "apply" then
      var a := Apply(env.rec, gorc, false);
      RunOutcome(Produced(org, a.result), a.invoked)
    else
      RunOutcome(Output(org, None, None, [UnknownCommand(cmd)]), [])
  }

  /**
   * `dry-run` and `apply` differ only in the flag: when the reconcilers answer
   * the same whatever the flag, both commands produce the same output after
   * calling the same stages, every one with `true` under `dry-run` and `false`
   * under `apply`.
   */
  lemma DryRunMatchesApply(org: string, gorc: Gorc, env: Env)
    requires env.rec.org(gorc.org, true) == env.rec.org(gorc.org, false)
    requires env.rec.members(gorc.members, true, gorc.behaviours) == env.rec.members(gorc.members, false, gorc.behaviours)
    ensures Run(org, "dry-run", gorc, env).output == Run(org, "apply", gorc, env).output
    ensures var a, b := Run(org, "dry-run", gorc, env).invoked, Run(org, "apply", gorc, env).invoked;
      && |a| == |b| > 0
      && forall i :: 0 <= i < |a| ==> a[i].stage == b[i].stage && a[i].dryRun && !b[i].dryRun
  {
    var x, y := Apply(env.rec, gorc, true), Apply(env.rec, gorc, false);
    assert Run(org, "dry-run", gorc, env) == RunOutcome(Produced(org, x.result), x.invoked);
    assert Run(org, "apply", gorc, env) == RunOutcome(Produced(org, y.result), y.invoked);
  }

  /** An organisation failure is recorded, and the members reconciler is never called. */
  lemma OrgFailureSkipsMembers(org: string, cmd: string, gorc: Gorc, env: Env)
    requires cmd == "dry-run" || cmd == "apply"
    requires env.rec.org(gorc.org, cmd == "dry-run").Failure?
    ensures Run(org, cmd, gorc, env).invoked == [Invocation(OrgStage, cmd == "dry-run")]
    ensures Run(org, cmd, gorc, env).output == Output(org, None, None, [env.rec.org(gorc.org, cmd == "dry-run").error])
  {
  }

  /** A recognised command reports either its product or exactly one error. */
  lemma RecognisedCommandReportsOne(org: string, cmd: string, gorc: Gorc, env: Env)
    requires cmd in {"init", "validate", "dry-run", "apply"}
    ensures var o := Run(org, cmd, gorc, env).output;
      (o.gorc.Some? || o.valid.Some?) <==> o.errors == []
  {
  }

  /** The members reconciler this model defines: the desired list comes back unchanged in every branch, and a missing list fails. */
  function ModelledMembers(live: seq<M.Member>): (Option<seq<M.Member>>, bool, Option<Behaviours>) -> Result<seq<M.Member>, Error> {
    (ms: Option<seq<M.Member>>, d: bool, b: Option<Behaviours>) =>
      if ms.None? then Failure(NotAList("members")) else Success(M.Reconcile(live, ms.value, d).value)
  }

  /** This model's reconcilers, in the environment of a command. */
  function ModelledEnv(live: seq<M.Member>, init: Result<Gorc, Error>, verdict: Verdict): Env {
    Env(init, verdict, Reconcilers((o: Option<Organization>, d: bool) => Success(o), ModelledMembers(live)))
  }

  /**
   * With this model's reconcilers, `apply` and `dry-run` report the desired
   * organisation and members, the behaviours as given, and empty collaborator
   * and team lists; when `members` is missing (as in an empty file) the run
   * records the `TypeError` instead.
   */
  lemma ModelledApply(org: string, cmd: string, gorc: Gorc, live: seq<M.Member>, init: Result<Gorc, Error>, verdict: Verdict)
    requires cmd == "dry-run" || cmd == "apply"
    ensures var o := Run(org, cmd, gorc, ModelledEnv(live, init, verdict));
      && o.invoked == [Invocation(OrgStage, cmd == "dry-run"), Invocation(MembersStage, cmd == "dry-run")]
      && (gorc.members.Some? ==>
            o.output == Output(org, Some(Gorc(gorc.org, gorc.members, Some([]), Some([]), gorc.behaviours)), None, []))
      && (gorc.members.None? ==> o.output == Output(org, None, None, [NotAList("members")]))
  {
    var env := ModelledEnv(live, init, verdict);
    var dryRun := cmd == "dry-run";
    assert env.rec.org(gorc.org, dryRun) == Success(gorc.org);
    var a := Apply(env.rec, gorc, dryRun);
    if gorc.members.Some? {
      assert env.rec.members(gorc.members, dryRun, gorc.behaviours) == Success(gorc.members.value);
      assert a.result == Success(Gorc(gorc.org, gorc.members, Some([]), Some([]), gorc.behaviours));
    } else {
      assert env.rec.members(gorc.members, dryRun, gorc.behaviours) == Failure(NotAList("members"));
      assert a.result == Failure(NotAList("members"));
    }
    assert Run(org, cmd, gorc, env) == RunOutcome(Produced(org, a.result), a.invoked);
  }

  /** An empty configuration file (read as `{}`) makes `apply` and `dry-run` record the members reconciler's `TypeError`. */
  lemma EmptyFileRecordsTypeError(org: string, cmd: string, live: seq<M.Member>, init: Result<Gorc, Error>, verdict: Verdict)
    requires cmd == "dry-run" || cmd == "apply"
    ensures Run(org, cmd, Empty, ModelledEnv(live, init, verdict)).output == Output(org, None, None, [NotAList("members")])
  {
    ModelledApply(org, cmd, Empty, live, init, verdict);
  }
}

=== FILE: json.dfy ===
/**
 * JSON-like values as they come out of the YAML document or the gateway, and
 * the `removeEmpty` normaliser (src/gops.ts:21-27, duplicated at src/gorc.ts:29-35).
 *
 * Objects are maps from key to value; arrays are sequences of optional values,
 * because `delete` on an array index leaves a hole rather than shifting the
 * elements. JavaScript's `undefined` is never stored: it is a missing key or a hole.
 */
module Json {
  import opened Wrappers
  import opened Seqs

  datatype Json =
    | JNull
    | JBool(b: bool)
    | JNum(n: int)
    | JStr(s: string)
    | JArr(elems: seq<Option<Json>>)
    | JObj(fields: map<string, Json>)

  /** JavaScript truthiness of a present value. */
  predicate Truthy(j: Json) {
    match j
    case JNull => false
    case JBool(b) => b
    case JNum(n) => n != 0
    case JStr(s) => s != ""
    case _ => true
  }

  /** JavaScript `typeof` of a present value (`typeof null` is "object"). */
  function TypeOf(j: Json): string {
    match j
    case JBool(_) => "boolean"
    case JNum(_) => "number"
    case JStr(_) => "string"
    case _ => "object"
  }

  /** The two values `removeEmpty` deletes: the empty string and null. */
  predicate Blank(j: Json) {
    j == JNull || j == JStr("")
  }

  /** A value `removeEmpty` descends into: a truthy value whose `typeof` is "object". */
  predicate Descended(j: Json) {
    Truthy(j) && TypeOf(j) == "object"
  }

  /** No key of any object and no element of any array, at any depth, holds '' or null. */
  predicate NoBlank(j: Json)
    decreases j
  {
    match j
    case JObj(m) => forall k :: k in m ==> !Blank(m[k]) && NoBlank(m[k])
    case JArr(a) => forall i :: 0 <= i < |a| && a[i].Some? ==> !Blank(a[i].value) && NoBlank(a[i].value)
    case _ => true
  }

  /**
   * `removeEmpty`: objects and arrays are cleaned key by key; any other value
   * is left as it is. Its recursive calls only reach objects and arrays; a
   * top-level call on `undefined` or `null` raises at `Object.keys`, which the
   * reconcilers model as a `NotAList` failure before any cleaning.
   */
  function RemoveEmpty(j: Json): (r: Json)
    ensures r.JObj? <==> j.JObj?
    ensures r.JArr? <==> j.JArr?
    ensures NoBlank(r)
    decreases j, 2
  {
    match j
    case JObj(m) => JObj(CleanFields(m))
    case JArr(a) => JArr(CleanElems(a))
    case _ => j
  }

  /** What one iteration of the key loop leaves at a key holding `v`: recursed, deleted or kept. */
  function Step(v: Json): (r: Option<Json>)
    ensures r.None? <==> Blank(v)
    ensures r.Some? ==> !Blank(r.value) && NoBlank(r.value)
    ensures !Descended(v) && !Blank(v) ==> r == Some(v)
    decreases v, 3
  {
    if Descended(v) then Some(RemoveEmpty(v))
    else if Blank(v) then None
    else Some(v)
  }

  /** The key loop over an object. */
  function CleanFields(m: map<string, Json>): (r: map<string, Json>)
    ensures r.Keys <= m.Keys
    ensures forall k :: k in r ==> !Blank(r[k]) && NoBlank(r[k])
    decreases JObj(m), 1
  {
    map k | k in m && Step(m[k]).Some? :: Step(m[k]).value
  }

  /** The key loop over an array: a deleted index becomes a hole, holes stay holes. */
  function CleanElems(a: seq<Option<Json>>): (r: seq<Option<Json>>)
    ensures |r| == |a|
    ensures forall i :: 0 <= i < |r| && r[i].Some? ==> !Blank(r[i].value) && NoBlank(r[i].value)
    decreases JArr(a), 1
  {
    seq(|a|, i requires 0 <= i < |a| => if a[i].Some? then Step(a[i].value) else None)
  }

  /** On an object, exactly the '' and null keys go; primitives stay as they were; objects and arrays are cleaned but kept. */
  lemma RemoveEmptyObject(m: map<string, Json>)
    ensures RemoveEmpty(JObj(m)).fields.Keys == set k | k in m && !Blank(m[k])
    ensures forall k :: k in m && !Blank(m[k]) && !Descended(m[k]) ==> RemoveEmpty(JObj(m)).fields[k] == m[k]
    ensures forall k :: k in m && Descended(m[k]) ==> RemoveEmpty(JObj(m)).fields[k] == RemoveEmpty(m[k])
  {
    forall k | k in m && Descended(m[k])
      ensures Step(m[k]) == Some(RemoveEmpty(m[k]))
    {
    }
  }

  /** On an array, the length is unchanged, '' and null become holes and every other index keeps its element. */
  lemma RemoveEmptyArray(a: seq<Option<Json>>)
    ensures |RemoveEmpty(JArr(a)).elems| == |a|
    ensures forall i :: 0 <= i < |a| && (a[i].None? || Blank(a[i].value)) ==> RemoveEmpty(JArr(a)).elems[i].None?
    ensures forall i :: 0 <= i < |a| && a[i].Some? && !Blank(a[i].value) && !Descended(a[i].value) ==>
      RemoveEmpty(JArr(a)).elems[i] == a[i]
    ensures forall i :: 0 <= i < |a| && a[i].Some? && Descended(a[i].value) ==>
      RemoveEmpty(JArr(a)).elems[i] == Some(RemoveEmpty(a[i].value))
  {
    forall i | 0 <= i < |a| && a[i].Some? && Descended(a[i].value)
      ensures Step(a[i].value) == Some(RemoveEmpty(a[i].value))
    {
    }
  }

  /** The falsy values `false` and `0` are not deleted: only '' and null are. */
  lemma FalsyValuesKept(m: map<string, Json>, k: string)
    requires k in m && (m[k] == JBool(false) || m[k] == JNum(0))
    ensures k in RemoveEmpty(JObj(m)).fields && RemoveEmpty(JObj(m)).fields[k] == m[k]
  {
  }

  /** A value without blanks is left untouched. */
  lemma {:induction false} RemoveEmptyFixesClean(j: Json)
    requires NoBlank(j)
    ensures RemoveEmpty(j) == j
    decreases j
  {
    match j
    case JObj(m) =>
      forall k | k in m
        ensures Step(m[k]) == Some(m[k])
      {
        if Descended(m[k]) {
          RemoveEmptyFixesClean(m[k]);
        }
      }
      assert CleanFields(m) == m;
    case JArr(a) =>
      forall i | 0 <= i < |a|
        ensures CleanElems(a)[i] == a[i]
      {
        if a[i].Some? && Descended(a[i].value) {
          RemoveEmptyFixesClean(a[i].value);
        }
      }
      assert CleanElems(a) == a;
    case _ =>
  }

  /** `removeEmpty` is idempotent. */
  lemma RemoveEmptyIdempotent(j: Json)
    ensures RemoveEmpty(RemoveEmpty(j)) == RemoveEmpty(j)
  {
    RemoveEmptyFixesClean(RemoveEmpty(j));
  }

  /* ---------------- Typed record fields ---------------- */

  /** A primitive field value: what `===` compares in the reconcilers. */
  datatype Prim = PNull | PBool(b: bool) | PNum(n: int) | PStr(s: string)

  /** An optional record field; `None` is `undefined` (the key is absent). */
  type Field = Option<Prim>

  function PrimJson(p: Prim): Json {
    match p
    case PNull => JNull
    case PBool(b) => JBool(b)
    case PNum(n) => JNum(n)
    case PStr(s) => JStr(s)
  }

  /** Field-wise normalisation: '' and null become `undefined`; everything else is kept. */
  function NormalizeField(f: Field): (r: Field)
    ensures r.None? <==> f.None? || f == Some(PNull) || f == Some(PStr(""))
    ensures r.Some? ==> r == f
  {
    if f == Some(PNull) || f == Some(PStr("")) then None else f
  }

  /** The object key a field contributes: none when the field is `undefined`. */
  function FieldEntry(key: string, f: Field): map<string, Json> {
    if f.Some? then map[key := PrimJson(f.value)] else map[]
  }

  /** A flat record whose fields are read by key name; an `undefined` field contributes no key. */
  function Record(keys: set<string>, get: string -> Field): (r: map<string, Json>)
    ensures r.Keys <= keys
  {
    map k | k in keys && get(k).Some? :: PrimJson(get(k).value)
  }

  /** On a flat record, `removeEmpty` normalises each field. */
  lemma CleanRecord(keys: set<string>, get: string -> Field, normalized: string -> Field)
    requires forall k :: k in keys ==> normalized(k) == NormalizeField(get(k))
    ensures CleanFields(Record(keys, get)) == Record(keys, normalized)
  {
    var l, r := CleanFields(Record(keys, get)), Record(keys, normalized);
    forall k | k in keys && get(k).Some?
      ensures (k in l <==> k in r) && (k in l ==> l[k] == r[k])
    {
      assert !Descended(PrimJson(get(k).value));
    }
    assert l.Keys == r.Keys;
  }

  /** An array of records, none of them a hole. */
  function ListJson<T>(xs: seq<T>, enc: T -> Json): (r: Json)
    ensures r.JArr? && |r.elems| == |xs|
  {
    JArr(seq(|xs|, i requires 0 <= i < |xs| => Some(enc(xs[i]))))
  }

  /** The object key an optional list contributes. */
  function ListEntry<T>(key: string, xs: Option<seq<T>>, enc: T -> Json): map<string, Json> {
    if xs.Some? then map[key := ListJson(xs.value, enc)] else map[]
  }

  /** Cleaning a union of disjoint key sets cleans each part. */
  lemma CleanFieldsUnion(a: map<string, Json>, b: map<string, Json>)
    requires a.Keys !! b.Keys
    ensures CleanFields(a + b) == CleanFields(a) + CleanFields(b)
  {
    var l, r := CleanFields(a + b), CleanFields(a) + CleanFields(b);
    forall k | k in a + b
      ensures (k in l <==> k in r) && (k in l ==> l[k] == r[k])
    {
      if k in b {
        assert (a + b)[k] == b[k];
      } else {
        assert (a + b)[k] == a[k];
      }
    }
    assert l.Keys == r.Keys;
  }

  /** On a primitive field, `removeEmpty` does what `NormalizeField` does. */
  lemma CleanFieldEntry(key: string, f: Field)
    ensures CleanFields(FieldEntry(key, f)) == FieldEntry(key, NormalizeField(f))
  {
    if f.Some? {
      assert !Descended(PrimJson(f.value));
    }
  }

  /** On an array of records, `removeEmpty` normalises each record and leaves no hole. */
  lemma RemoveEmptyList<T>(xs: seq<T>, enc: T -> Json, norm: T -> T)
    requires forall x :: enc(x).JObj? && RemoveEmpty(enc(x)) == enc(norm(x))
    ensures RemoveEmpty(ListJson(xs, enc)) == ListJson(Map(norm, xs), enc)
  {
    var l := ListJson(xs, enc);
    var l' := ListJson(Map(norm, xs), enc);
    forall i | 0 <= i < |l.elems|
      ensures CleanElems(l.elems)[i] == l'.elems[i]
    {
      var x := xs[i];
      assert l.elems[i] == Some(enc(x));
      assert Descended(enc(x));
      assert Step(enc(x)) == Some(enc(norm(x)));
    }
    assert CleanElems(l.elems) == l'.elems;
  }

  /** An optional list field is cleaned record by record and kept. */
  lemma CleanListEntry<T>(key: string, xs: Option<seq<T>>, enc: T -> Json, norm: T -> T)
    requires forall x :: enc(x).JObj? && RemoveEmpty(enc(x)) == enc(norm(x))
    ensures CleanFields(ListEntry(key, xs, enc)) == ListEntry(key, if xs.Some? then Some(Map(norm, xs.value)) else None, enc)
  {
    if xs.Some? {
      var l := ListJson(xs.value, enc);
      RemoveEmptyList(xs.value, enc, norm);
      assert Descended(l);
      assert Step(l) == Some(ListJson(Map(norm, xs.value), enc));
    }
  }
}

=== FILE: members.dfy ===
/** Organisation members (src/members.ts). */
module Members {
  import opened Wrappers
  import opened Seqs
  import opened Json
  import opened Diff

  /** `{ login, role }`; both fields are compared with `===`, so logins are case-sensitive. */
  datatype Member = Member(login: Field, role: Field)

  const AdminRole: Field := Some(PStr("admin"))
  const MemberRole: Field := Some(PStr("member"))
  const CollaboratorRole: Field := Some(PStr("collaborator"))

  /** A login string as the gateway returns it. */
  function LoginField(login: string): Field {
    Some(PStr(login))
  }

  /** The member as a JSON object. */
  function ToJson(m: Member): Json {
    JObj(FieldEntry("login", m.login) + FieldEntry("role", m.role))
  }

  /** The member with '' and null fields removed. */
  function Normalize(m: Member): Member {
    Member(NormalizeField(m.login), NormalizeField(m.role))
  }

  /** `Normalize` is what `removeEmpty` does to a member object. */
  lemma NormalizeIsRemoveEmpty(m: Member)
    ensures RemoveEmpty(ToJson(m)) == ToJson(Normalize(m))
  {
    CleanFieldsUnion(FieldEntry("login", m.login), FieldEntry("role", m.role));
    CleanFieldEntry("login", m.login);
    CleanFieldEntry("role", m.role);
  }

  /** `removeEmpty` on an array of members normalises every member and leaves no hole. */
  lemma NormalizeListIsRemoveEmpty(ms: seq<Member>)
    ensures RemoveEmpty(ListJson(ms, ToJson)) == ListJson(Map(Normalize, ms), ToJson)
  {
    EveryMemberNormalizes();
    RemoveEmptyList(ms, ToJson, Normalize);
  }

  lemma EveryMemberNormalizes()
    ensures forall m: Member :: ToJson(m).JObj? && RemoveEmpty(ToJson(m)) == ToJson(Normalize(m))
  {
    forall m: Member
      ensures RemoveEmpty(ToJson(m)) == ToJson(Normalize(m))
    {
      NormalizeIsRemoveEmpty(m);
    }
  }

  /** Normalising twice is normalising once. */
  lemma NormalizeIdempotent(m: Member)
    ensures Normalize(Normalize(m)) == Normalize(m)
  {
  }

  /** Identity: `a.login === b.login`. */
  predicate Exist(a: Member, b: Member) {
    a.login == b.login
  }

  /** Equality: `a.login === b.login && a.role === b.role`. */
  predicate Same(a: Member, b: Member) {
    a.login == b.login && a.role == b.role
  }

  /** The fetched logins of one role, as members with that role. */
  function Tag(logins: seq<string>, role: Field): (r: seq<Member>)
    ensures |r| == |logins|
    ensures forall i :: 0 <= i < |logins| ==> r[i] == Member(LoginField(logins[i]), role)
  {
    Map(l => Member(LoginField(l), role), logins)
  }

  /** The live list: admins, then members, then outside collaborators, each in fetch order. */
  function LiveMembers(admins: seq<string>, members: seq<string>, collaborators: seq<string>): (r: seq<Member>)
    ensures |r| == |admins| + |members| + |collaborators|
    ensures forall m :: m in r ==> m.role == AdminRole || m.role == MemberRole || m.role == CollaboratorRole
    ensures forall i :: 0 <= i < |admins| ==> r[i] == Member(LoginField(admins[i]), AdminRole)
    ensures forall i :: 0 <= i < |members| ==> r[|admins| + i] == Member(LoginField(members[i]), MemberRole)
    ensures forall i :: 0 <= i < |collaborators| ==>
      r[|admins| + |members| + i] == Member(LoginField(collaborators[i]), CollaboratorRole)
  {
    Tag(admins, AdminRole) + Tag(members, MemberRole) + Tag(collaborators, CollaboratorRole)
  }

  function Logins(ms: seq<Member>): seq<Field> {
    Map((m: Member) => m.login, ms)
  }

  /** The entries of `ms` with the given role, in order. */
  function WithRole(ms: seq<Member>, role: Field): (r: seq<Member>)
    ensures forall m :: m in r <==> m in ms && m.role == role
  {
    Filter(ms, (m: Member) => m.role == role)
  }

  lemma WithRoleConcat(x: seq<Member>, y: seq<Member>, role: Field)
    ensures WithRole(x + y, role) == WithRole(x, role) + WithRole(y, role)
  {
    FilterConcat(x, y, (m: Member) => m.role == role);
  }

  lemma WithRoleTag(logins: seq<string>, role: Field, want: Field)
    ensures WithRole(Tag(logins, role), want) == if role == want then Tag(logins, role) else []
  {
    if role == want {
      FilterAll(Tag(logins, role), (m: Member) => m.role == want);
    } else {
      FilterNone(Tag(logins, role), (m: Member) => m.role == want);
    }
  }

  lemma LoginsTag(logins: seq<string>, role: Field)
    ensures Logins(Tag(logins, role)) == Map(LoginField, logins)
  {
  }

  /** Selecting the role of one block when the other two blocks carry other roles. */
  lemma SelectBlock(a: seq<Member>, m: seq<Member>, c: seq<Member>, role: Field)
    requires WithRole(a, role) == [] && WithRole(c, role) == []
    ensures WithRole(a + m + c, role) == WithRole(m, role)
  {
    WithRoleConcat(a + m, c, role);
    WithRoleConcat(a, m, role);
  }

  /** Recovering the logins of a block of role `role` between blocks that carry other roles. */
  lemma BlockLogins(before: seq<Member>, logins: seq<string>, role: Field, after: seq<Member>)
    requires WithRole(before, role) == [] && WithRole(after, role) == []
    ensures Logins(WithRole(before + Tag(logins, role) + after, role)) == Map(LoginField, logins)
  {
    WithRoleTag(logins, role, role);
    SelectBlock(before, Tag(logins, role), after, role);
    LoginsTag(logins, role);
  }

  lemma NoneOfRole(logins: seq<string>, role: Field, other: Field)
    requires role != other
    ensures WithRole(Tag(logins, role), other) == []
  {
    WithRoleTag(logins, role, other);
  }

  lemma AdminsRecovered(admins: seq<string>, members: seq<string>, collaborators: seq<string>)
    ensures Logins(WithRole(LiveMembers(admins, members, collaborators), AdminRole)) == Map(LoginField, admins)
  {
    var a, m, c := Tag(admins, AdminRole), Tag(members, MemberRole), Tag(collaborators, CollaboratorRole);
    NoneOfRole(members, MemberRole, AdminRole);
    NoneOfRole(collaborators, CollaboratorRole, AdminRole);
    WithRoleConcat(m, c, AdminRole);
    WithRoleConcat(a, m + c, AdminRole);
    WithRoleTag(admins, AdminRole, AdminRole);
    LoginsTag(admins, AdminRole);
    assert a + (m + c) == LiveMembers(admins, members, collaborators);
    assert WithRole(a + (m + c), AdminRole) == a + [];
  }

  lemma MembersRecovered(admins: seq<string>, members: seq<string>, collaborators: seq<string>)
    ensures Logins(WithRole(LiveMembers(admins, members, collaborators), MemberRole)) == Map(LoginField, members)
  {
    var a, c := Tag(admins, AdminRole), Tag(collaborators, CollaboratorRole);
    NoneOfRole(admins, AdminRole, MemberRole);
    NoneOfRole(collaborators, CollaboratorRole, MemberRole);
    BlockLogins(a, members, MemberRole, c);
  }

  lemma CollaboratorsRecovered(admins: seq<string>, members: seq<string>, collaborators: seq<string>)
    ensures Logins(WithRole(LiveMembers(admins, members, collaborators), CollaboratorRole)) == Map(LoginField, collaborators)
  {
    var a, m, c := Tag(admins, AdminRole), Tag(members, MemberRole), Tag(collaborators, CollaboratorRole);
    NoneOfRole(admins, AdminRole, CollaboratorRole);
    NoneOfRole(members, MemberRole, CollaboratorRole);
    WithRoleConcat(a, m, CollaboratorRole);
    BlockLogins(a + m, collaborators, CollaboratorRole, []);
    assert (a + m) + c + [] == LiveMembers(admins, members, collaborators);
  }

  /** Each role of the live list recovers the logins fetched for it, in fetch order. */
  lemma LiveMembersByRole(admins: seq<string>, members: seq<string>, collaborators: seq<string>)
    ensures Logins(WithRole(LiveMembers(admins, members, collaborators), AdminRole)) == Map(LoginField, admins)
    ensures Logins(WithRole(LiveMembers(admins, members, collaborators), MemberRole)) == Map(LoginField, members)
    ensures Logins(WithRole(LiveMembers(admins, members, collaborators), CollaboratorRole)) == Map(LoginField, collaborators)
  {
    AdminsRecovered(admins, members, collaborators);
    MembersRecovered(admins, members, collaborators);
    CollaboratorsRecovered(admins, members, collaborators);
  }

  /** The differences: the live list is normalised, the desired list is not. */
  function Differences(live: seq<Member>, desired: seq<Member>): (r: Delta<Member>)
    ensures forall x :: x in r.remove <==> x in Map(Normalize, live) && forall d :: d in desired ==> d.login != x.login
    ensures forall d :: d in r.update <==> d in desired && d !in Map(Normalize, live)
    ensures forall x, y :: x in r.remove && y in r.update ==> x.login != y.login
    ensures IsSubsequence(r.remove, Map(Normalize, live)) && IsSubsequence(r.update, desired)
    ensures forall x :: multiset(r.remove)[x] ==
                          if forall d :: d in desired ==> d.login != x.login then multiset(Map(Normalize, live))[x] else 0
    ensures forall d :: multiset(r.update)[d] == if d !in Map(Normalize, live) then multiset(desired)[d] else 0
  {
    RemovalFacts(Map(Normalize, live), desired);
    UpdateFacts(Map(Normalize, live), desired);
    Compute(Map(Normalize, live), desired, Exist, Same)
  }

  /** The removals: a live member goes when no desired member has its login, whatever the role. */
  lemma RemovalFacts(current: seq<Member>, desired: seq<Member>)
    ensures var r := Removals(current, desired, Exist);
      && (forall x :: x in r <==> x in current && forall d :: d in desired ==> d.login != x.login)
      && forall x :: multiset(r)[x] == if forall d :: d in desired ==> d.login != x.login then multiset(current)[x] else 0
  {
    assert forall x :: Unmatched(x, desired, Exist) <==> forall d :: d in desired ==> d.login != x.login;
  }

  /** The updates: a desired member goes when its exact `(login, role)` is not live. */
  lemma UpdateFacts(current: seq<Member>, desired: seq<Member>)
    ensures var r := Updates(current, desired, Same);
      && (forall d :: d in r <==> d in desired && d !in current)
      && forall d :: multiset(r)[d] == if d !in current then multiset(desired)[d] else 0
  {
    assert forall d :: Unequalled(d, current, Same) <==> d !in current;
  }

  /** `apply`: report the differences; the desired list is returned unchanged in every branch. */
  function Reconcile(live: seq<Member>, desired: seq<Member>, dryRun: bool): (r: Report<Delta<Member>, Member>)
    ensures r.value == desired
    ensures r.diff == Differences(live, desired)
    ensures r.branch == InSync <==> r.diff.remove == [] && r.diff.update == []
    ensures r.branch == DryRun <==> dryRun && !r.diff.IsEmpty()
    ensures r.branch == Applied <==> !dryRun && !r.diff.IsEmpty()
  {
    var d := Differences(live, desired);
    Report(BranchFor(!d.IsEmpty(), dryRun), d, desired)
  }

  /** A desired member whose exact `(login, role)` is live is in neither list. */
  lemma ExactMatchInNeither(live: seq<Member>, desired: seq<Member>, d: Member)
    requires d in desired && d in Map(Normalize, live)
    ensures d !in Differences(live, desired).remove && d !in Differences(live, desired).update
  {
  }

  /** The branch is in-sync exactly when every live login is desired and every desired pair is live. */
  lemma InSyncIff(live: seq<Member>, desired: seq<Member>, dryRun: bool)
    ensures Reconcile(live, desired, dryRun).branch == InSync <==>
      (forall c :: c in Map(Normalize, live) ==> exists d :: d in desired && d.login == c.login) &&
      (forall d :: d in desired ==> d in Map(Normalize, live))
  {
    var r := Differences(live, desired);
    assert r.remove != [] ==> r.remove[0] in r.remove;
    assert r.update != [] ==> r.update[0] in r.update;
  }

  /** The same `(login, role)` pairs on both sides: nothing to remove or update. */
  lemma SamePairsInSync(live: seq<Member>, desired: seq<Member>, dryRun: bool)
    requires forall x :: x in Map(Normalize, live) <==> x in desired
    ensures Reconcile(live, desired, dryRun).branch == InSync
  {
    InSyncIff(live, desired, dryRun);
  }

  /** Dry-run and apply report the same differences and return the same list. */
  lemma DryRunMatchesApply(live: seq<Member>, desired: seq<Member>)
    ensures Reconcile(live, desired, true).diff == Reconcile(live, desired, false).diff
    ensures Reconcile(live, desired, true).value == Reconcile(live, desired, false).value
  {
  }

  /** Reconciling again against a live list equal to the returned (normalised) list finds nothing. */
  lemma ReapplyInSync(desired: seq<Member>, dryRun: bool)
    requires forall m :: m in desired ==> Normalize(m) == m
    ensures Reconcile(Reconcile(desired, desired, dryRun).value, desired, dryRun).branch == InSync
  {
    assert Map(Normalize, desired) == desired;
    SamePairsInSync(desired, desired, dryRun);
  }

  /* The worked example: live `a` (member) and `b` (admin); desired `a` (admin) and `c` (member). */
  const ExampleLive: seq<Member> := [Member(LoginField("a"), MemberRole), Member(LoginField("b"), AdminRole)]
  const ExampleDesired: seq<Member> := [Member(LoginField("a"), AdminRole), Member(LoginField("c"), MemberRole)]

  lemma ExampleRemovals()
    ensures Removals(ExampleLive, ExampleDesired, Exist) == [ExampleLive[1]]
  {
    var A, B := ExampleLive[0], ExampleLive[1];
    assert !Unmatched(A, ExampleDesired, Exist) by { assert Exist(A, ExampleDesired[0]); }
    assert Unmatched(B, ExampleDesired, Exist);
    var rm := Removals(ExampleLive, ExampleDesired, Exist);
    assert multiset(ExampleLive) == multiset{A, B};
    assert multiset(rm) == multiset{B} by {
      forall x ensures multiset(rm)[x] == multiset{B}[x] {
        if x != A && x != B {
          assert multiset(ExampleLive)[x] == 0;
        }
      }
    }
    assert |rm| == 1 && rm[0] in rm;
  }

  lemma ExampleUpdates()
    ensures Updates(ExampleLive, ExampleDesired, Same) == ExampleDesired
  {
    var A', C := ExampleDesired[0], ExampleDesired[1];
    assert Unequalled(A', ExampleLive, Same);
    assert Unequalled(C, ExampleLive, Same);
    var up := Updates(ExampleLive, ExampleDesired, Same);
    assert multiset(up) == multiset(ExampleDesired) by {
      forall x ensures multiset(up)[x] == multiset(ExampleDesired)[x] {
        if x != A' && x != C {
          assert x !in ExampleDesired;
        }
      }
    }
    assert |up| == |ExampleDesired|;
    SubsequenceFull(up, ExampleDesired);
  }

  /** The worked example: a role change and a new login are updates, a dropped login is a removal. */
  lemma Example()
    ensures Differences(ExampleLive, ExampleDesired) == Delta([ExampleLive[1]], ExampleDesired)
  {
    assert Map(Normalize, ExampleLive) == ExampleLive;
    ExampleRemovals();
    ExampleUpdates();
  }
}

=== FILE: organizations.dfy ===
/** The organisation settings record (src/organizations.ts). */
module Organizations {
  import opened Json

  /**
   * The settings as the JSON object they are read as. The reconciler compares
   * this record with a deep structural diff that is not part of this model, and
   * returns its desired record in every branch.
   */
  type Organization = map<string, Json>
}

=== FILE: repositories.dfy ===
/** Repositories with their collaborator and team grants (src/repositories.ts). */
module Repositories {
  import opened Wrappers
  import opened Seqs
  import opened Json
  import opened Diff

  /** A repository collaborator grant `{ login, permission }`. */
  datatype Grant = Grant(login: Field, permission: Field)

  /** A repository team grant `{ slug, permission }`. */
  datatype TeamGrant = TeamGrant(slug: Field, permission: Field)

  /** The repository settings that are compared, plus the two grant lists. */
  datatype Repository = Repository(
    name: Field, description: Field, homepage: Field, visibility: Field,
    hasIssues: Field, hasProjects: Field, hasWiki: Field, isTemplate: Field,
    allowSquashMerge: Field, allowMergeCommit: Field, deleteBranchOnMerge: Field,
    members: Option<seq<Grant>>, teams: Option<seq<TeamGrant>>)

  const Public: Field := Some(PStr("public"))
  const Private: Field := Some(PStr("private"))

  function GrantJson(g: Grant): Json {
    JObj(FieldEntry("login", g.login) + FieldEntry("permission", g.permission))
  }

  function TeamGrantJson(g: TeamGrant): Json {
    JObj(FieldEntry("slug", g.slug) + FieldEntry("permission", g.permission))
  }

  function NormalizeGrant(g: Grant): Grant {
    Grant(NormalizeField(g.login), NormalizeField(g.permission))
  }

  function NormalizeTeamGrant(g: TeamGrant): TeamGrant {
    TeamGrant(NormalizeField(g.slug), NormalizeField(g.permission))
  }

  /** The JSON keys of the ten compared settings and the name. */
  const SettingKeys: set<string> := {"name", "description", "homepage", "visibility", "has_issues", "has_projects",
    "has_wiki", "is_template", "allow_squash_merge", "allow_merge_commit", "delete_branch_on_merge"}

  /** The setting stored under a JSON key. */
  function Setting(r: Repository, key: string): Field {
    if key == "name" then r.name
    else if key == "description" then r.description
    else if key == "homepage" then r.homepage
    else if key == "visibility" then r.visibility
    else if key == "has_issues" then r.hasIssues
    else if key == "has_projects" then r.hasProjects
    else if key == "has_wiki" then r.hasWiki
    else if key == "is_template" then r.isTemplate
    else if key == "allow_squash_merge" then r.allowSquashMerge
    else if key == "allow_merge_commit" then r.allowMergeCommit
    else if key == "delete_branch_on_merge" then r.deleteBranchOnMerge
    else None
  }

  /** The scalar settings as JSON object keys. */
  function SettingsJson(r: Repository): map<string, Json> {
    Record(SettingKeys, k => Setting(r, k))
  }

  /** The two grant lists as JSON object keys. */
  function GrantsJson(r: Repository): map<string, Json> {
    ListEntry("members", r.members, GrantJson) + ListEntry("teams", r.teams, TeamGrantJson)
  }

  /** The repository as a JSON object. */
  function ToJson(r: Repository): Json {
    JObj(SettingsJson(r) + GrantsJson(r))
  }

  /** The repository with '' and null fields removed, its own and its grants'. */
  function Normalize(r: Repository): Repository {
    Repository(
      NormalizeField(r.name), NormalizeField(r.description), NormalizeField(r.homepage), NormalizeField(r.visibility),
      NormalizeField(r.hasIssues), NormalizeField(r.hasProjects), NormalizeField(r.hasWiki), NormalizeField(r.isTemplate),
      NormalizeField(r.allowSquashMerge), NormalizeField(r.allowMergeCommit), NormalizeField(r.deleteBranchOnMerge),
      if r.members.Some? then Some(Map(NormalizeGrant, r.members.value)) else None,
      if r.teams.Some? then Some(Map(NormalizeTeamGrant, r.teams.value)) else None)
  }

  lemma EveryGrantNormalizes()
    ensures forall g: Grant :: GrantJson(g).JObj? && RemoveEmpty(GrantJson(g)) == GrantJson(NormalizeGrant(g))
    ensures forall g: TeamGrant :: TeamGrantJson(g).JObj? && RemoveEmpty(TeamGrantJson(g)) == TeamGrantJson(NormalizeTeamGrant(g))
  {
    forall g: Grant
      ensures RemoveEmpty(GrantJson(g)) == GrantJson(NormalizeGrant(g))
    {
      CleanFieldsUnion(FieldEntry("login", g.login), FieldEntry("permission", g.permission));
      CleanFieldEntry("login", g.login);
      CleanFieldEntry("permission", g.permission);
    }
    forall g: TeamGrant
      ensures RemoveEmpty(TeamGrantJson(g)) == TeamGrantJson(NormalizeTeamGrant(g))
    {
      CleanFieldsUnion(FieldEntry("slug", g.slug), FieldEntry("permission", g.permission));
      CleanFieldEntry("slug", g.slug);
      CleanFieldEntry("permission", g.permission);
    }
  }

  /** Cleaning the scalar settings normalises each of them. */
  lemma CleanSettings(r: Repository)
    ensures CleanFields(SettingsJson(r)) == SettingsJson(Normalize(r))
  {
    forall k | k in SettingKeys
      ensures Setting(Normalize(r), k) == NormalizeField(Setting(r, k))
    {
      SettingNormalizes(r, k);
    }
    CleanRecord(SettingKeys, k => Setting(r, k), k => Setting(Normalize(r), k));
  }

  /** Every setting of the normalised repository is the normalised setting. */
  lemma SettingNormalizes(r: Repository, key: string)
    ensures Setting(Normalize(r), key) == NormalizeField(Setting(r, key))
  {
    var n := Normalize(r);
    if key == "name" { assert Setting(n, key) == n.name; }
    else if key == "description" { assert Setting(n, key) == n.description; }
    else if key == "homepage" { assert Setting(n, key) == n.homepage; }
    else if key == "visibility" { assert Setting(n, key) == n.visibility; }
    else if key == "has_issues" { assert Setting(n, key) == n.hasIssues; }
    else if key == "has_projects" { assert Setting(n, key) == n.hasProjects; }
    else if key == "has_wiki" { assert Setting(n, key) == n.hasWiki; }
    else if key == "is_template" { assert Setting(n, key) == n.isTemplate; }
    else if key == "allow_squash_merge" { assert Setting(n, key) == n.allowSquashMerge; }
    else if key == "allow_merge_commit" { assert Setting(n, key) == n.allowMergeCommit; }
    else if key == "delete_branch_on_merge" { assert Setting(n, key) == n.deleteBranchOnMerge; }
  }

  /** Cleaning the grant lists normalises every grant. */
  lemma CleanGrants(r: Repository)
    ensures CleanFields(GrantsJson(r)) == GrantsJson(Normalize(r))
  {
    var m := ListEntry("members", r.members, GrantJson);
    var t := ListEntry("teams", r.teams, TeamGrantJson);
    CleanFieldsUnion(m, t);
    EveryGrantNormalizes();
    CleanListEntry("members", r.members, GrantJson, NormalizeGrant);
    CleanListEntry("teams", r.teams, TeamGrantJson, NormalizeTeamGrant);
  }

  /** The settings and the grant lists occupy different keys. */
  lemma SettingsApartFromGrants(r: Repository)
    ensures SettingsJson(r).Keys !! GrantsJson(r).Keys
  {
    assert "members" !in SettingKeys && "teams" !in SettingKeys;
    assert GrantsJson(r).Keys <= {"members", "teams"};
  }

  /** `Normalize` is what `removeEmpty` does to a repository object. */
  lemma NormalizeIsRemoveEmpty(r: Repository)
    ensures RemoveEmpty(ToJson(r)) == ToJson(Normalize(r))
  {
    var s, g := SettingsJson(r), GrantsJson(r);
    SettingsApartFromGrants(r);
    CleanFieldsUnion(s, g);
    CleanSettings(r);
    CleanGrants(r);
    assert RemoveEmpty(ToJson(r)) == JObj(CleanFields(s + g));
  }

  /** `removeEmpty` on an array of repositories normalises every repository and leaves no hole. */
  lemma NormalizeListIsRemoveEmpty(rs: seq<Repository>)
    ensures RemoveEmpty(ListJson(rs, ToJson)) == ListJson(Map(Normalize, rs), ToJson)
  {
    forall r: Repository
      ensures RemoveEmpty(ToJson(r)) == ToJson(Normalize(r))
    {
      NormalizeIsRemoveEmpty(r);
    }
    RemoveEmptyList(rs, ToJson, Normalize);
  }

  lemma NormalizeIdempotent(r: Repository)
    ensures Normalize(Normalize(r)) == Normalize(r)
  {
    if r.members.Some? {
      assert Map(NormalizeGrant, Map(NormalizeGrant, r.members.value)) == Map(NormalizeGrant, r.members.value);
    }
    if r.teams.Some? {
      assert Map(NormalizeTeamGrant, Map(NormalizeTeamGrant, r.teams.value)) == Map(NormalizeTeamGrant, r.teams.value);
    }
  }

  /** Identity: `a.name === b.name`. */
  predicate Exist(a: Repository, b: Repository) {
    a.name == b.name
  }

  /** Equality: the name and every compared setting agree; the grant lists are not compared here. */
  predicate Same(a: Repository, b: Repository) {
    a.name == b.name && a.description == b.description && a.homepage == b.homepage && a.visibility == b.visibility
    && a.hasIssues == b.hasIssues && a.hasProjects == b.hasProjects && a.hasWiki == b.hasWiki
    && a.isTemplate == b.isTemplate && a.allowSquashMerge == b.allowSquashMerge
    && a.allowMergeCommit == b.allowMergeCommit && a.deleteBranchOnMerge == b.deleteBranchOnMerge
  }

  predicate GrantExist(a: Grant, b: Grant) {
    a.login == b.login
  }

  predicate GrantSame(a: Grant, b: Grant) {
    a.login == b.login && a.permission == b.permission
  }

  predicate TeamGrantExist(a: TeamGrant, b: TeamGrant) {
    a.slug == b.slug
  }

  predicate TeamGrantSame(a: TeamGrant, b: TeamGrant) {
    a.slug == b.slug && a.permission == b.permission
  }

  function Name(r: Repository): Field {
    r.name
  }

  function MembersOf(r: Repository): Option<seq<Grant>> {
    r.members
  }

  function TeamsOf(r: Repository): Option<seq<TeamGrant>> {
    r.teams
  }

  /** Repository removals and updates, plus per-repository grant differences for repositories on both sides. */
  datatype ReposDiff = ReposDiff(remove: seq<Repository>, update: seq<Repository>,
                                 members: seq<Tagged<Field, Grant>>, teams: seq<Tagged<Field, TeamGrant>>) {
    predicate IsEmpty() {
      |remove| == 0 && |update| == 0 && |members| == 0 && |teams| == 0
    }
  }

  /** The differences between two normalised lists. */
  function Differences(current: seq<Repository>, desired: seq<Repository>): (r: ReposDiff)
    ensures forall x :: x in r.remove <==> x in current && forall d :: d in desired ==> d.name != x.name
    ensures forall d :: d in r.update <==> d in desired && forall c :: c in current ==> !Same(c, d)
    ensures forall x, y :: x in r.remove && y in r.update ==> x.name != y.name
    ensures IsSubsequence(r.remove, current) && IsSubsequence(r.update, desired)
    ensures forall x :: multiset(r.remove)[x] == if forall d :: d in desired ==> d.name != x.name then multiset(current)[x] else 0
    ensures forall d :: multiset(r.update)[d] == if forall c :: c in current ==> !Same(c, d) then multiset(desired)[d] else 0
    ensures r.members == PerParent(current, desired, Name, MembersOf, GrantExist, GrantSame)
    ensures r.teams == PerParent(current, desired, Name, TeamsOf, TeamGrantExist, TeamGrantSame)
  {
    var top := Compute(current, desired, Exist, Same);
    ReposDiff(top.remove, top.update,
              PerParent(current, desired, Name, MembersOf, GrantExist, GrantSame),
              PerParent(current, desired, Name, TeamsOf, TeamGrantExist, TeamGrantSame))
  }

  /**
   * `apply`: both lists are normalised in place; no change is made in any branch
   * and the normalised desired list is returned.
   */
  function Reconcile(live: seq<Repository>, desired: seq<Repository>, dryRun: bool): (r: Report<ReposDiff, Repository>)
    ensures r.value == Map(Normalize, desired)
    ensures r.diff == Differences(Map(Normalize, live), Map(Normalize, desired))
    ensures r.branch == InSync <==> r.diff.IsEmpty()
    ensures r.branch == DryRun <==> dryRun && !r.diff.IsEmpty()
  {
    var current, wanted := Map(Normalize, live), Map(Normalize, desired);
    var d := Differences(current, wanted);
    Report(BranchFor(!d.IsEmpty(), dryRun), d, wanted)
  }

  /** A desired repository whose name is not live is always listed for update. */
  lemma NewRepositoryUpdated(current: seq<Repository>, desired: seq<Repository>, d: Repository)
    requires d in desired && forall c :: c in current ==> c.name != d.name
    ensures d in Differences(current, desired).update
    ensures d !in Differences(current, desired).remove
    ensures forall e :: e in Differences(current, desired).members ==> e.parent != d.name
    ensures forall e :: e in Differences(current, desired).teams ==> e.parent != d.name
  {
    NewIdentityUpdated(current, desired, Exist, Same, d);
    PerParentEntries(current, desired, Name, MembersOf, GrantExist, GrantSame);
    PerParentEntries(current, desired, Name, TeamsOf, TeamGrantExist, TeamGrantSame);
  }

  /** Grant entries exist only for repositories on both sides, are non-empty and follow desired order. */
  lemma GrantEntriesForSharedRepositories(current: seq<Repository>, desired: seq<Repository>)
    ensures var r := Differences(current, desired);
      && (forall e :: e in r.members ==> !e.delta.IsEmpty() && (exists c :: c in current && c.name == e.parent))
      && (forall e :: e in r.teams ==> !e.delta.IsEmpty() && (exists c :: c in current && c.name == e.parent))
      && IsSubsequence(Parents(r.members), Map(Name, desired))
      && IsSubsequence(Parents(r.teams), Map(Name, desired))
  {
    PerParentEntries(current, desired, Name, MembersOf, GrantExist, GrantSame);
    PerParentEntries(current, desired, Name, TeamsOf, TeamGrantExist, TeamGrantSame);
  }

  /** Dry run and apply compute the same differences and return the same list: the apply branch writes nothing. */
  lemma DryRunMatchesApply(live: seq<Repository>, desired: seq<Repository>)
    ensures Reconcile(live, desired, false).value == Reconcile(live, desired, true).value == Map(Normalize, desired)
    ensures Reconcile(live, desired, false).diff == Reconcile(live, desired, true).diff
    ensures Reconcile(live, desired, false).branch == InSync <==> Reconcile(live, desired, true).branch == InSync
  {
  }

  /** Reconciling again against a live list equal to the returned list is in sync (names being unique). */
  lemma ReapplyInSync(desired: seq<Repository>, dryRun: bool)
    requires var n := Map(Normalize, desired); forall i, j :: 0 <= i < j < |n| ==> n[i].name != n[j].name
    ensures Reconcile(Reconcile(desired, desired, dryRun).value, desired, dryRun).branch == InSync
  {
    var n := Map(Normalize, desired);
    forall i | 0 <= i < |n| ensures Map(Normalize, n)[i] == n[i] {
      NormalizeIdempotent(desired[i]);
    }
    assert Map(Normalize, n) == n;
    SelfDiffEmpty(n, Exist, Same);
    SelfPerParentEmpty(n, Name, MembersOf, GrantExist, GrantSame);
    SelfPerParentEmpty(n, Name, TeamsOf, TeamGrantExist, TeamGrantSame);
  }

  /* ---------------- The live list ---------------- */

  /** A repository as the gateway lists it. */
  datatype FetchedRepo = FetchedRepo(
    name: string, description: Field, homepage: Field, isPrivate: bool,
    hasIssues: Field, hasProjects: Field, hasWiki: Field, isTemplate: Field,
    allowSquashMerge: Field, allowMergeCommit: Field, deleteBranchOnMerge: Field)

  /** A collaborator as the gateway lists it: its login and its role name. */
  datatype FetchedCollaborator = FetchedCollaborator(login: string, roleName: string)

  /** A team grant as the gateway lists it. */
  datatype FetchedTeamGrant = FetchedTeamGrant(slug: string, permission: string)

  /** The live repository: visibility from the private flag, and both grant lists always present, in fetch order. */
  function LiveRepository(f: FetchedRepo, collaborators: seq<FetchedCollaborator>, teams: seq<FetchedTeamGrant>): (r: Repository)
    ensures r.name == Some(PStr(f.name))
    ensures r.visibility == (if f.isPrivate then Private else Public)
    ensures && r.description == f.description && r.homepage == f.homepage
            && r.hasIssues == f.hasIssues && r.hasProjects == f.hasProjects && r.hasWiki == f.hasWiki
            && r.isTemplate == f.isTemplate && r.allowSquashMerge == f.allowSquashMerge
            && r.allowMergeCommit == f.allowMergeCommit && r.deleteBranchOnMerge == f.deleteBranchOnMerge
    ensures r.members.Some? && |r.members.value| == |collaborators|
    ensures forall i :: 0 <= i < |collaborators| ==>
      r.members.value[i] == Grant(Some(PStr(collaborators[i].login)), Some(PStr(collaborators[i].roleName)))
    ensures r.teams.Some? && |r.teams.value| == |teams|
    ensures forall i :: 0 <= i < |teams| ==>
      r.teams.value[i] == TeamGrant(Some(PStr(teams[i].slug)), Some(PStr(teams[i].permission)))
  {
    Repository(
      Some(PStr(f.name)), f.description, f.homepage, if f.isPrivate then Private else Public,
      f.hasIssues, f.hasProjects, f.hasWiki, f.isTemplate, f.allowSquashMerge, f.allowMergeCommit, f.deleteBranchOnMerge,
      Some(Map((c: FetchedCollaborator) => Grant(Some(PStr(c.login)), Some(PStr(c.roleName))), collaborators)),
      Some(Map((t: FetchedTeamGrant) => TeamGrant(Some(PStr(t.slug)), Some(PStr(t.permission))), teams)))
  }

  /** A live repository never lacks a grant list, so a desired repository without `members` removes every live grant. */
  lemma MissingGrantsRemoveAll(f: FetchedRepo, collaborators: seq<FetchedCollaborator>, teams: seq<FetchedTeamGrant>, d: Repository)
    requires d.members.None? && d.teams.None?
    ensures var c := LiveRepository(f, collaborators, teams);
      && Nested(c.members, d.members, GrantExist, GrantSame) == Delta(c.members.value, [])
      && Nested(c.teams, d.teams, TeamGrantExist, TeamGrantSame) == Delta(c.teams.value, [])
  {
  }
}

=== FILE: seqs.dfy ===
/** Sequence helpers mirroring the JavaScript array operations the reconcilers use. */
module Seqs {
  import opened Wrappers

  /** `r` can be obtained from `s` by deleting elements: order is preserved. */
  predicate IsSubsequence<T(==)>(r: seq<T>, s: seq<T>)
    decreases |s|
  {
    |r| == 0 || (|s| > 0 && ((r[0] == s[0] && IsSubsequence(r[1..], s[1..])) || IsSubsequence(r, s[1..])))
  }

  /** A subsequence as long as the sequence it is drawn from is that sequence. */
  lemma {:induction false} SubsequenceFull<T>(r: seq<T>, s: seq<T>)
    requires IsSubsequence(r, s)
    ensures |r| <= |s|
    ensures |r| == |s| ==> r == s
    decreases |s|
  {
    if |r| > 0 {
      if r[0] == s[0] && IsSubsequence(r[1..], s[1..]) {
        SubsequenceFull(r[1..], s[1..]);
        if |r| == |s| {
          assert r == [r[0]] + r[1..] && s == [s[0]] + s[1..];
        }
      } else {
        SubsequenceFull(r, s[1..]);
      }
    }
  }

  /** A subsequence of a subsequence of `c` is a subsequence of `c`. */
  lemma {:induction false} SubsequenceTrans<T>(a: seq<T>, b: seq<T>, c: seq<T>)
    requires IsSubsequence(a, b) && IsSubsequence(b, c)
    ensures IsSubsequence(a, c)
    decreases |c|
  {
    if |a| > 0 {
      if b[0] == c[0] && IsSubsequence(b[1..], c[1..]) {
        if a[0] == b[0] && IsSubsequence(a[1..], b[1..]) {
          SubsequenceTrans(a[1..], b[1..], c[1..]);
        } else {
          SubsequenceTrans(a, b[1..], c[1..]);
        }
      } else {
        SubsequenceTrans(a, b, c[1..]);
      }
    }
  }

  /** `Array.prototype.filter`: the elements of `s` that satisfy `p`, in order. */
  function Filter<T(!new)>(s: seq<T>, p: T -> bool): (r: seq<T>)
    ensures forall x :: x in r <==> x in s && p(x)
    ensures |r| <= |s|
    decreases |s|
  {
    if |s| == 0 then []
    else
      var rest := Filter(s[1..], p);
      assert s == [s[0]] + s[1..];
      if p(s[0]) then [s[0]] + rest else rest
  }

  /** Filtering keeps every occurrence of a selected element and none of the others. */
  lemma {:induction false} FilterCount<T(!new)>(s: seq<T>, p: T -> bool)
    ensures forall x :: multiset(Filter(s, p))[x] == if p(x) then multiset(s)[x] else 0
    decreases |s|
  {
    if |s| > 0 {
      FilterCount(s[1..], p);
      assert s == [s[0]] + s[1..];
    }
  }

  /** Filtering keeps the input order: the result is a subsequence of the input. */
  lemma {:induction false} FilterIsSubsequence<T(!new)>(s: seq<T>, p: T -> bool)
    ensures IsSubsequence(Filter(s, p), s)
    decreases |s|
  {
    if |s| > 0 {
      FilterIsSubsequence(s[1..], p);
      var rest := Filter(s[1..], p);
      if p(s[0]) {
        assert Filter(s, p) == [s[0]] + rest;
        assert ([s[0]] + rest)[1..] == rest;
      } else {
        assert Filter(s, p) == rest;
      }
    }
  }

  /** Filtering distributes over concatenation. */
  lemma {:induction false} FilterConcat<T(!new)>(a: seq<T>, b: seq<T>, p: T -> bool)
    ensures Filter(a + b, p) == Filter(a, p) + Filter(b, p)
    decreases |a|
  {
    if |a| > 0 {
      assert (a + b)[1..] == a[1..] + b;
      FilterConcat(a[1..], b, p);
    } else {
      assert a + b == b;
    }
  }

  /** A filter whose predicate holds of every element returns the input unchanged. */
  lemma {:induction false} FilterAll<T(!new)>(s: seq<T>, p: T -> bool)
    requires forall x :: x in s ==> p(x)
    ensures Filter(s, p) == s
    decreases |s|
  {
    if |s| > 0 {
      assert forall x :: x in s[1..] ==> x in s;
      FilterAll(s[1..], p);
      assert s == [s[0]] + s[1..];
    }
  }

  /** A filter whose predicate holds of no element returns the empty list. */
  lemma FilterNone<T(!new)>(s: seq<T>, p: T -> bool)
    requires forall x :: x in s ==> !p(x)
    ensures Filter(s, p) == []
  {
    if Filter(s, p) != [] {
      assert Filter(s, p)[0] in Filter(s, p);
    }
  }

  /** Filters with predicates that agree on the elements of `s` give the same result. */
  lemma {:induction false} FilterCongruent<T(!new)>(s: seq<T>, p: T -> bool, q: T -> bool)
    requires forall x :: x in s ==> p(x) == q(x)
    ensures Filter(s, p) == Filter(s, q)
    decreases |s|
  {
    if |s| > 0 {
      assert forall x :: x in s[1..] ==> x in s;
      FilterCongruent(s[1..], p, q);
    }
  }

  /** `Array.prototype.find`: the first element of `s` that satisfies `p`, if any. */
  function Find<T(!new)>(s: seq<T>, p: T -> bool): (r: Option<T>)
    ensures r.Some? <==> exists x :: x in s && p(x)
    ensures r.Some? ==> r.value in s && p(r.value)
    ensures r.Some? ==> exists i :: 0 <= i < |s| && s[i] == r.value && forall j :: 0 <= j < i ==> !p(s[j])
    decreases |s|
  {
    if |s| == 0 then None
    else if p(s[0]) then Some(s[0])
    else
      var r := Find(s[1..], p);
      FindShift(s, p, r);
      r
  }

  /** `find` returns the element at the first index that satisfies `p`. */
  lemma FindFirst<T(!new)>(s: seq<T>, p: T -> bool)
    ensures forall i :: 0 <= i < |s| && p(s[i]) && (forall j :: 0 <= j < i ==> !p(s[j])) ==> Find(s, p) == Some(s[i])
  {
    forall i | 0 <= i < |s| && p(s[i]) && (forall j :: 0 <= j < i ==> !p(s[j]))
      ensures Find(s, p) == Some(s[i])
    {
      var r := Find(s, p);
      var k :| 0 <= k < |s| && s[k] == r.value && forall j :: 0 <= j < k ==> !p(s[j]);
      if k < i {
        assert !p(s[k]);
      }
    }
  }

  /** A first match in the tail of `s` is a first match in `s` when the head does not match. */
  lemma FindShift<T(!new)>(s: seq<T>, p: T -> bool, r: Option<T>)
    requires |s| > 0 && !p(s[0])
    requires r.Some? <==> exists x :: x in s[1..] && p(x)
    requires r.Some? ==> exists i :: 0 <= i < |s[1..]| && s[1..][i] == r.value && forall j :: 0 <= j < i ==> !p(s[1..][j])
    ensures r.Some? <==> exists x :: x in s && p(x)
    ensures r.Some? ==> exists i :: 0 <= i < |s| && s[i] == r.value && forall j :: 0 <= j < i ==> !p(s[j])
  {
    assert forall x :: x in s[1..] ==> x in s;
    assert forall x :: x in s && x != s[0] ==> x in s[1..];
    if r.Some? {
      var i :| 0 <= i < |s[1..]| && s[1..][i] == r.value && forall j :: 0 <= j < i ==> !p(s[1..][j]);
      assert s[i + 1] == r.value;
      assert forall j :: 1 <= j < i + 1 ==> s[j] == s[1..][j - 1];
    }
  }

  /** `Array.prototype.map`. */
  function Map<T, U>(f: T -> U, s: seq<T>): (r: seq<U>)
    ensures |r| == |s|
    ensures forall i :: 0 <= i < |s| ==> r[i] == f(s[i])
  {
    seq(|s|, i requires 0 <= i < |s| => f(s[i]))
  }

  /** An injective map keeps multiplicities: `f(x)` occurs in `Map(f, s)` as often as `x` occurs in `s`. */
  lemma {:induction false} MapMultiset<T, U>(f: T -> U, s: seq<T>, x: T)
    requires forall a, b :: f(a) == f(b) ==> a == b
    ensures multiset(Map(f, s))[f(x)] == multiset(s)[x]
    decreases |s|
  {
    if |s| > 0 {
      var t := s[1..];
      MapMultiset(f, t, x);
      assert s == [s[0]] + t;
      assert Map(f, s) == [f(s[0])] + Map(f, t);
      assert multiset(Map(f, s)) == multiset{f(s[0])} + multiset(Map(f, t));
      assert multiset(s) == multiset{s[0]} + multiset(t);
    }
  }
}

=== FILE: teams.dfy ===
/** Teams and their per-team member lists (src/teams.ts). */
module Teams {
  import opened Wrappers
  import opened Seqs
  import opened Json
  import opened Diff
  import M = Members

  /** `{ slug, name?, description?, privacy?, parent?, members? }`; `parent` is the parent team's slug. */
  datatype Team = Team(slug: Field, name: Field, description: Field, privacy: Field, parent: Field,
                       members: Option<seq<M.Member>>)

  const MaintainerRole: Field := Some(PStr("maintainer"))

  /** The JSON keys of the team's own fields. */
  const FieldKeys: set<string> := {"slug", "name", "description", "privacy", "parent"}

  /** The field stored under a JSON key. */
  function FieldAt(t: Team, key: string): Field {
    if key == "slug" then t.slug
    else if key == "name" then t.name
    else if key == "description" then t.description
    else if key == "privacy" then t.privacy
    else if key == "parent" then t.parent
    else None
  }

  /** The team as a JSON object. */
  function ToJson(t: Team): Json {
    JObj(Record(FieldKeys, k => FieldAt(t, k)) + ListEntry("members", t.members, M.ToJson))
  }

  /** The team with '' and null fields removed, its own and its members'. */
  function Normalize(t: Team): Team {
    Team(NormalizeField(t.slug), NormalizeField(t.name), NormalizeField(t.description), NormalizeField(t.privacy),
         NormalizeField(t.parent), if t.members.Some? then Some(Map(M.Normalize, t.members.value)) else None)
  }

  /** Every field of the normalised team is the normalised field. */
  lemma FieldNormalizes(t: Team, key: string)
    ensures FieldAt(Normalize(t), key) == NormalizeField(FieldAt(t, key))
  {
  }

  /** `Normalize` is what `removeEmpty` does to a team object. */
  lemma NormalizeIsRemoveEmpty(t: Team)
    ensures RemoveEmpty(ToJson(t)) == ToJson(Normalize(t))
  {
    var f := Record(FieldKeys, k => FieldAt(t, k));
    var m := ListEntry("members", t.members, M.ToJson);
    assert "members" !in FieldKeys;
    CleanFieldsUnion(f, m);
    forall k | k in FieldKeys
      ensures FieldAt(Normalize(t), k) == NormalizeField(FieldAt(t, k))
    {
      FieldNormalizes(t, k);
    }
    CleanRecord(FieldKeys, k => FieldAt(t, k), k => FieldAt(Normalize(t), k));
    M.EveryMemberNormalizes();
    CleanListEntry("members", t.members, M.ToJson, M.Normalize);
  }

  /** `removeEmpty` on an array of teams normalises every team and leaves no hole. */
  lemma NormalizeListIsRemoveEmpty(ts: seq<Team>)
    ensures RemoveEmpty(ListJson(ts, ToJson)) == ListJson(Map(Normalize, ts), ToJson)
  {
    forall t: Team
      ensures RemoveEmpty(ToJson(t)) == ToJson(Normalize(t))
    {
      NormalizeIsRemoveEmpty(t);
    }
    RemoveEmptyList(ts, ToJson, Normalize);
  }

  lemma NormalizeIdempotent(t: Team)
    ensures Normalize(Normalize(t)) == Normalize(t)
  {
    if t.members.Some? {
      assert Map(M.Normalize, Map(M.Normalize, t.members.value)) == Map(M.Normalize, t.members.value);
    }
  }

  /** Identity: `a.slug === b.slug`. */
  predicate Exist(a: Team, b: Team) {
    a.slug == b.slug
  }

  /** Equality: `name`, `privacy`, `parent` and `description` agree; the slug is not compared. */
  predicate Same(a: Team, b: Team) {
    a.name == b.name && a.privacy == b.privacy && a.parent == b.parent && a.description == b.description
  }

  function Slug(t: Team): Field {
    t.slug
  }

  function MembersOf(t: Team): Option<seq<M.Member>> {
    t.members
  }

  /** Team removals and updates, plus the member differences of teams present on both sides. */
  datatype TeamsDiff = TeamsDiff(remove: seq<Team>, update: seq<Team>, members: seq<Tagged<Field, M.Member>>) {
    predicate IsEmpty() {
      |remove| == 0 && |update| == 0 && |members| == 0
    }
  }

  /** The differences between two normalised lists. */
  function Differences(current: seq<Team>, desired: seq<Team>): (r: TeamsDiff)
    ensures forall x :: x in r.remove <==> x in current && forall d :: d in desired ==> d.slug != x.slug
    ensures forall d :: d in r.update <==> d in desired && forall c :: c in current ==> !Same(c, d)
    ensures forall x, y :: x in r.remove && y in r.update ==> x.slug != y.slug
    ensures IsSubsequence(r.remove, current) && IsSubsequence(r.update, desired)
    ensures forall x :: multiset(r.remove)[x] == if forall d :: d in desired ==> d.slug != x.slug then multiset(current)[x] else 0
    ensures forall d :: multiset(r.update)[d] == if forall c :: c in current ==> !Same(c, d) then multiset(desired)[d] else 0
    ensures r.members == PerParent(current, desired, Slug, MembersOf, M.Exist, M.Same)
  {
    var top := Compute(current, desired, Exist, Same);
    TeamsDiff(top.remove, top.update, PerParent(current, desired, Slug, MembersOf, M.Exist, M.Same))
  }

  /** `apply`: both lists are normalised in place and the (normalised) desired list is returned in every branch. */
  function Reconcile(live: seq<Team>, desired: seq<Team>, dryRun: bool): (r: Report<TeamsDiff, Team>)
    ensures r.value == Map(Normalize, desired)
    ensures r.diff == Differences(Map(Normalize, live), Map(Normalize, desired))
    ensures r.branch == InSync <==> r.diff.IsEmpty()
    ensures r.branch == DryRun <==> dryRun && !r.diff.IsEmpty()
  {
    var current, wanted := Map(Normalize, live), Map(Normalize, desired);
    var d := Differences(current, wanted);
    Report(BranchFor(!d.IsEmpty(), dryRun), d, wanted)
  }

  /** Nested member entries exist only for desired teams whose slug is live, are non-empty and follow desired order. */
  lemma NestedEntriesForSharedTeams(current: seq<Team>, desired: seq<Team>)
    ensures var r := Differences(current, desired).members;
      && (forall e :: e in r ==> !e.delta.IsEmpty())
      && (forall e :: e in r ==> (exists c :: c in current && c.slug == e.parent) && (exists t :: t in desired && t.slug == e.parent))
      && IsSubsequence(Parents(r), Map(Slug, desired))
  {
    PerParentEntries(current, desired, Slug, MembersOf, M.Exist, M.Same);
  }

  /**
   * The nested member diff keys removals by login and updates by login and role;
   * a missing desired list removes every live member, a missing live list adds every desired one.
   */
  lemma NestedMemberDiff(c: Team, t: Team)
    ensures var n := Nested(c.members, t.members, M.Exist, M.Same);
      && (c.members.Some? && t.members.Some? ==>
            n == Compute(c.members.value, t.members.value, M.Exist, M.Same))
      && (c.members.Some? && t.members.None? ==> n.remove == c.members.value && n.update == [])
      && (c.members.None? && t.members.Some? ==> n.remove == [] && n.update == t.members.value)
  {
    NestedIsCompute(c.members, t.members, M.Exist, M.Same);
  }

  /**
   * Top-level `same` ignores the slug: a desired team agreeing with a live team
   * on every compared field but carrying another slug is not an update, and the
   * live team is removed.
   */
  lemma NewSlugMatchingLiveFieldsNotUpdated(c: Team, t: Team)
    requires Same(c, t) && c.slug != t.slug
    ensures Differences([c], [t]).update == []
    ensures Differences([c], [t]).remove == [c]
  {
    var d := Differences([c], [t]);
    assert c in d.remove;
    assert forall x :: x in d.remove ==> x == c;
    assert d.remove == [c] by {
      SubsequenceFull(d.remove, [c]);
      assert |d.remove| >= 1 by { assert d.remove[0] in d.remove; }
    }
    assert t !in d.update;
  }

  /** For example, a live team `a` and a desired team `b` with the same name and privacy. */
  lemma RenamedTeamExample()
    ensures var live := Team(Some(PStr("a")), Some(PStr("Team")), None, Some(PStr("closed")), None, None);
      var wanted := Team(Some(PStr("b")), Some(PStr("Team")), None, Some(PStr("closed")), None, None);
      Differences([live], [wanted]).update == [] && Differences([live], [wanted]).remove == [live]
  {
    var live := Team(Some(PStr("a")), Some(PStr("Team")), None, Some(PStr("closed")), None, None);
    var wanted := Team(Some(PStr("b")), Some(PStr("Team")), None, Some(PStr("closed")), None, None);
    assert live.slug != wanted.slug;
    NewSlugMatchingLiveFieldsNotUpdated(live, wanted);
  }

  /** Reconciling again against a live list equal to the returned list is in sync (slugs being unique). */
  lemma ReapplyInSync(desired: seq<Team>, dryRun: bool)
    requires var n := Map(Normalize, desired); forall i, j :: 0 <= i < j < |n| ==> n[i].slug != n[j].slug
    ensures Reconcile(Reconcile(desired, desired, dryRun).value, desired, dryRun).branch == InSync
  {
    var n := Map(Normalize, desired);
    forall i | 0 <= i < |n| ensures Map(Normalize, n)[i] == n[i] {
      NormalizeIdempotent(desired[i]);
    }
    assert Map(Normalize, n) == n;
    SelfDiffEmpty(n, Exist, Same);
    SelfPerParentEmpty(n, Slug, MembersOf, M.Exist, M.Same);
  }

  /* ---------------- The live list ---------------- */

  /** A team as the gateway lists it; `parent` is the parent team's slug, `None` when there is no parent. */
  datatype FetchedTeam = FetchedTeam(slug: string, name: Field, description: Field, privacy: Field, parent: Option<string>)

  /** The live team: its members are every `member` followed by every `maintainer`, in fetch order. */
  function LiveTeam(t: FetchedTeam, members: seq<string>, maintainers: seq<string>): (r: Team)
    ensures r.slug == Some(PStr(t.slug)) && r.name == t.name && r.description == t.description && r.privacy == t.privacy
    ensures t.parent.Some? ==> r.parent == Some(PStr(t.parent.value))
    ensures t.parent.None? ==> r.parent.None?
    ensures r.members.Some? && |r.members.value| == |members| + |maintainers|
    ensures forall i :: 0 <= i < |members| ==> r.members.value[i] == M.Member(M.LoginField(members[i]), M.MemberRole)
    ensures forall i :: 0 <= i < |maintainers| ==>
      r.members.value[|members| + i] == M.Member(M.LoginField(maintainers[i]), MaintainerRole)
  {
    Team(Some(PStr(t.slug)), t.name, t.description, t.privacy,
         if t.parent.Some? then Some(PStr(t.parent.value)) else None,
         Some(M.Tag(members, M.MemberRole) + M.Tag(maintainers, MaintainerRole)))
  }

  /** Each role of a live team's member list recovers the logins fetched for it, in fetch order. */
  lemma LiveTeamByRole(t: FetchedTeam, members: seq<string>, maintainers: seq<string>)
    ensures M.Logins(M.WithRole(LiveTeam(t, members, maintainers).members.value, M.MemberRole)) == Map(M.LoginField, members)
    ensures M.Logins(M.WithRole(LiveTeam(t, members, maintainers).members.value, MaintainerRole)) == Map(M.LoginField, maintainers)
  {
    var a, b := M.Tag(members, M.MemberRole), M.Tag(maintainers, MaintainerRole);
    assert M.MemberRole != MaintainerRole;
    assert M.WithRole([], M.MemberRole) == [] && M.WithRole([], MaintainerRole) == [];
    M.NoneOfRole(maintainers, MaintainerRole, M.MemberRole);
    M.BlockLogins([], members, M.MemberRole, b);
    assert [] + a + b == a + b;
    M.NoneOfRole(members, M.MemberRole, MaintainerRole);
    M.BlockLogins(a, maintainers, MaintainerRole, []);
    assert a + b + [] == a + b;
  }
}

=== FILE: wrappers.dfy ===
/** Failure-compatible wrappers shared by every module of the model. */
module Wrappers {

  /** A value that may be absent: JavaScript's `undefined`, a missing key or a list hole. */
  datatype Option<+T> = None | Some(value: T) {
    function GetOr(default: T): T {
      match this
      case Some(v) => v
      case None => default
    }
  }

  /** The outcome of a call that either returns a value or throws an error. */
  datatype Result<+R, +E> = Success(value: R) | Failure(error: E)
}
